=== FILE: README.md ===
# aspa goodness-of-fit core, modelled in Dafny

This project models the goodness-of-fit library of the aspa spike-train
analysis code, `code/aspa_dist.c`. The library has the following parts:

- **Matrix power with scale tracking.** `mMultiply` and `mPower` come from
  Marsaglia, Tsang and Wang. `mPower` raises a square matrix to the n-th
  power by recursive halving. It carries a decimal exponent and moves a
  factor 1e140 into it whenever the centre entry grows past 1e140.
- **`aspa_cdf_K`.** The distribution function of the two-sided Kolmogorov
  statistic. Above a threshold of d²n it uses the asymptotic formula.
  Otherwise it builds the band matrix H, raises it to the n-th power and
  normalises the centre entry by n!/n^n, guarding against underflow.
- **`aspa_cdf_Kplus`.** The one-sided distribution, by equation 3 of
  Birnbaum and Tingey (1951), summed in log space.
- **The statistics.** `aspa_Kolmogorov_D` computes D, D+ or D-;
  `aspa_AndersonDarling_W2` computes the Anderson-Darling W². Each sorts a
  private copy of the data unless the caller declares them sorted.
- **Anderson-Darling p-values.** The cut-off guard of `aspa_cdf_ADinf_P`,
  the finite-sample correction `aspa_errfix`, and `aspa_cdf_AD_P`, which
  inlines that correction.
- **`aspa_durbin_modification`.** Durbin's (1961) transformation of a sample
  of [0, 1]. It computes the n+1 spacings, sorts them, reweights them and
  takes prefix sums.

Arithmetic is exact (`real`). The claims are about the algorithms, not
double rounding.

Transcendental functions are not defined in the model. exp, log, sqrt,
`gsl_sf_lnchoose`, `aspa_adinf` and the `aspa_cdf_ADinf_P` series are
fields of a `RealMath.Primitives` value passed as a parameter. Every
property holds for all such functions, or states what it needs of them as a
precondition.

The model represents data as follows:

- A C matrix is a row-major buffer of m·m doubles. Here it is a sequence of
  m rows, so buffer index i·m+j is `a[i][j]`.
- A matrix paired with its int exponent is `MatrixPower.Scaled`.
- `gsl_sort_vector` is `Sorting.Sort`: the unique sorted permutation of its
  input.

Modules, one per file, follow the program's structure:

| file | module | contents |
|---|---|---|
| real_math.dfy | RealMath | primitives, powers, factorial, powers of ten, floor and ceiling |
| sums.dfy | Sums | finite sums and their algebra; the accumulation loop |
| matrix.dfy | Matrices | square matrices, `mMultiply`, associativity, powers |
| matrix_power.dfy | MatrixPower | `mPower` and its scale invariant |
| kolmogorov.dfy | Kolmogorov | `aspa_cdf_K` |
| kolmogorov_plus.dfy | KolmogorovPlus | `aspa_cdf_Kplus` |
| sorting.dfy | Sorting | sortedness, insertion sort, uniqueness of the sorted permutation |
| statistics.dfy | Statistics | `aspa_Kolmogorov_D`, `aspa_AndersonDarling_W2` |
| anderson_darling.dfy | AndersonDarling | `aspa_cdf_ADinf_P` guard, `aspa_errfix`, `aspa_cdf_AD_P` |
| durbin.dfy | Durbin | `aspa_durbin_modification` |

Three behaviours of the code are worth stating plainly:

- **D-.** With x_(0) <= … <= x_(n-1), the code's D- is
  max((i+1)/n − x_(i)), because line 203 sets `diff = inv_n - diff` after
  `diff = x_(i) - i/n`. The model has this D-.
- **Unknown selector.** A selector of `aspa_Kolmogorov_D` other than "D",
  "D+" or "D-" makes the function return -1.0 (line 215, as the comment at
  line 171 documents). The model does the same.
- **Equally spaced sample.** Durbin's transformation carries the sample
  j/(n+1), j = 1..n, to 1, 1, …, 1 (`Durbin.EquallySpacedTransform`).

## Model

| member | source | states |
|---|---|---|
| Matrices.MMultiply | code/aspa_dist.c:22-34 | the result is m x m and entry (i, j) is the sum over k < m of A[i][k]·B[k][j] |
| Matrices.MatMulScale | code/aspa_dist.c:62-73 | multiplying matrices scaled by p and q gives their product scaled by p·q, which is why exponents add |
| Matrices.Associative | code/aspa_dist.c:60-74 | the matrix product is associative, so the order in which mPower groups its factors does not matter |
| Matrices.MatPowAdd | code/aspa_dist.c:60-74 | A^(p+q) = A^p · A^q for p, q >= 1 |
| MatrixPower.ProductValue | code/aspa_dist.c:62-73 | multiplying mantissas and adding exponents (eB = 2 eV, eV = eA + eB) yields the product of the matrices the scaled operands stand for |
| MatrixPower.Rescale | code/aspa_dist.c:76-81 | when the centre entry V[(m/2)m+m/2] exceeds 1e140, every entry is multiplied by 1e-140 and the exponent grows by exactly 140; otherwise V and eV are returned unchanged |
| MatrixPower.RescaleValue | code/aspa_dist.c:76-81 | rescaling leaves V·10^eV unchanged |
| MatrixPower.MPower | code/aspa_dist.c:50-83 | mPower by recursive halving; the result is m x m (its value is stated by MPowerIsPower) |
| MatrixPower.PowerStep | code/aspa_dist.c:60-81 | the work after the recursive call: squaring, the odd-n multiplication and the rescale, keeping an m x m mantissa |
| MatrixPower.MPowerIsPower | code/aspa_dist.c:50-83 | for n >= 1, V·10^eV equals (A·10^eA)^n, and n = 1 returns A and eA themselves |
| MatrixPower.PowerStepValue | code/aspa_dist.c:60-81 | if the recursive call returns the (n/2)-th power, squaring, the odd-n multiplication and the rescale give the n-th power |
| MatrixPower.SquareValue | code/aspa_dist.c:62-69 | squaring a scaled h-th power gives the 2h-th power (the even case) |
| MatrixPower.MultiplyValue | code/aspa_dist.c:72-73 | multiplying by A·10^eA on the left adds one to the power (the odd case) |
| Kolmogorov.CdfK | code/aspa_dist.c:95-131 | the asymptotic formula exactly when d²n > 7.24 or (d²n > 3.76 and n > 99); otherwise n!/n^n·(H^n)[k-1][k-1] for n·d > 0, and 0 for n·d <= 0 |
| Kolmogorov.CdfKAsWritten | code/aspa_dist.c:95-131 | the function as written reaches an index outside H exactly when the exact regime is entered with n·d <= 0; otherwise it returns the same probability as CdfK |
| Kolmogorov.ShapeFacts | code/aspa_dist.c:100-102 | for n·d > 0: k >= 1, m >= 1 and 0 <= h < 1 |
| Kolmogorov.CentreIndex | code/aspa_dist.c:76 | the index m/2 that mPower tests is k-1, the centre entry read after the power |
| Kolmogorov.HMatrix | code/aspa_dist.c:105-118 | H is m x m, its entries are the built and divided values, and it vanishes above the superdiagonal (j > i+1) |
| Kolmogorov.HMatchesReference | code/aspa_dist.c:105-118 | every entry of the built H equals Marsaglia, Tsang and Wang's closed form: 1/(i-j+1)! inside, (1-h^(i+1))/(i+1)! in the first column, (1-h^(m-j))/(m-j)! in the last row, (1-2h^m+max(0,2h-1)^m)/m! in the corner |
| Kolmogorov.DividedByFactorial | code/aspa_dist.c:115-118 | dividing by 1, 2, ..., g in turn divides by g! |
| Kolmogorov.Normalise | code/aspa_dist.c:122-127 | the loop with its 1e-140 underflow guard and the final pow(10, eQ) returns exactly q·10^eQ·n!/n^n |
| Kolmogorov.PassesClosedForm | code/aspa_dist.c:122-124 | n passes of s = s·i/n multiply by i!/n^i |
| Kolmogorov.ScaleMantissa | code/aspa_dist.c:124 | updating the mantissa s by i/n updates s·10^eQ by the same factor |
| Kolmogorov.ShiftDigits | code/aspa_dist.c:125 | multiplying s by 1e140 while eQ -= 140 keeps s·10^eQ |
| Kolmogorov.NormalisedCentre | code/aspa_dist.c:119-127 | mPower with eH = 0, then normalising Q's centre entry, gives n!/n^n·(H^n)[c][c] |
| Kolmogorov.CentreOfPower | code/aspa_dist.c:119-121 | mantissa and exponent of entry (c, c) of Q stand for (H^n)[c][c] |
| Kolmogorov.ExactPath | code/aspa_dist.c:100-127 | the exact regime with n·d > 0 returns Marsaglia's n!/n^n·(H^n)[k-1][k-1] |
| Kolmogorov.CornerOutside | code/aspa_dist.c:100-114 | m <= -1 iff n·d <= 0, and then the corner index (m-1)·m lies outside the m·m buffer; for m >= 1 it lies inside |
| Kolmogorov.ZeroDeviationOverflows | code/aspa_dist.c:98-114 | n = 1, d = 0 takes the exact regime with m = -1 and writes index 2 of a buffer of one element |
| KolmogorovPlus.CdfKplus | code/aspa_dist.c:145-159 | exactly 0 for d <= 0, exactly 1 for d >= 1, and 1 - d·(sum of the terms j = 0..floor(n(1-d))) in between |
| KolmogorovPlus.Top | code/aspa_dist.c:151 | for 0 < d < 1 the last index k = floor(n(1-d)) lies in 0..n-1, so the unsigned conversion does not wrap and every exponent n-j is at least 1 |
| KolmogorovPlus.Term | code/aspa_dist.c:154-157 | term j as exp(lnC(n,j) + (n-j)·log(1-d-j/n) + (j-1)·log(d+j/n)), and 0 when 1-d-j/n = 0, where log gives -infinity and exp of -infinity is 0 (its value is stated by TermIsTingey) |
| KolmogorovPlus.SummationRange | code/aspa_dist.c:151-157 | j <= k iff 1-d-j/n >= 0, and d+j/n > 0 always, so no logarithm of a negative number is taken |
| KolmogorovPlus.KplusIsBirnbaumTingey | code/aspa_dist.c:145-159 | for 0 < d < 1, when exp, log and lnchoose are exact on the terms whose logarithms are finite (1-d-j/n > 0), the log-space sum gives Birnbaum and Tingey's equation 3 |
| KolmogorovPlus.SumIsTingey | code/aspa_dist.c:154-157 | under the same condition, the first k <= floor(n(1-d))+1 accumulated terms sum to the sum of Birnbaum and Tingey's terms |
| KolmogorovPlus.TermIsTingey | code/aspa_dist.c:155-157 | one log-space term equals C(n,j)(1-d-j/n)^(n-j)(d+j/n)^(j-1): both are 0 when 1-d-j/n = 0, and equal under exactness when it is positive |
| KolmogorovPlus.ExactnessAttainable | code/aspa_dist.c:155-157 | the exactness premise can be met by primitives whose exp is positive everywhere at n = 3, d = .5, where d > 1/n and two terms have finite logarithms, so the two lemmas above are not vacuous there |
| Sums.Accumulate | code/aspa_dist.c:154-157 | the accumulation loop returns the finite sum of its terms |
| Statistics.KolmogorovD | code/aspa_dist.c:180-216 | "D" returns max(D+, D-), "D+" D+, "D-" D-, any other selector -1.0, with D+ and D- taken over the sorted data |
| Statistics.RunningMaxima | code/aspa_dist.c:194-206 | the loop leaves D_p and D_m equal to the running maxima of 0 and the deviations |
| Statistics.MaxDevIsMaximum | code/aspa_dist.c:194-206 | the running maximum is at least 0, bounds every deviation, and is 0 or one of them |
| Statistics.DeviationsCoverStep | code/aspa_dist.c:196-206 | for non-empty data D+ + D- >= 1/n, so D > 0 |
| Statistics.KolmogorovOrderFree | code/aspa_dist.c:184-193 | without the sorted flag, the statistic depends only on the multiset of the data |
| Statistics.KolmogorovSortedFlag | code/aspa_dist.c:184-193 | on sorted data, declaring them sorted gives the same value as sorting a copy |
| Statistics.AndersonDarlingW2 | code/aspa_dist.c:280-304 | NaN exactly for empty data or when some product x_i(1-x_(n-1-i)) of the sorted data is negative (log of a negative number); otherwise +infinity exactly when some product is 0 (log 0 = -infinity); otherwise -A/n - n with A the sum of (2i+1)·log(x_i(1-x_(n-1-i))) |
| Statistics.AccumulateLogs | code/aspa_dist.c:295-299 | the loop's accumulator is NaN iff a product so far is negative, otherwise -infinity iff one is 0, and otherwise the finite sum of the terms |
| Statistics.TracksStep | code/aspa_dist.c:297-298 | one pass, with NaN absorbing everything and -infinity absorbing finite terms, keeps that correspondence |
| Statistics.W2OnUnitInterval | code/aspa_dist.c:280-304 | for non-empty data in [0, 1], W² is +infinity iff 0 or 1 is among the data, and a number otherwise |
| Statistics.UnitSampleProducts | code/aspa_dist.c:296-298 | on a sorted sample of [0, 1] no product is negative, and some product is 0 iff the sample holds 0 or 1 |
| Statistics.W2IsTextbook | code/aspa_dist.c:293-303 | when log turns products into sums, the result is the textbook A² = -n - (1/n)·sum[(2i+1) log x_i + (2n-2i-1) log(1-x_i)] |
| Statistics.W2SumIsTextbook | code/aspa_dist.c:295-299 | the loop's paired sum equals the textbook sum |
| Statistics.W2OrderFree | code/aspa_dist.c:283-292 | without the sorted flag, W² depends only on the multiset of the data |
| Statistics.W2SortedFlag | code/aspa_dist.c:283-292 | on sorted data the flag does not change W² |
| Sorting.Sort | code/aspa_dist.c:186-188 | the sorted copy is sorted, has the same length and is a permutation of the data |
| Sorting.SortedUnique | code/aspa_dist.c:186-188 | two sorted permutations of the same data are equal |
| Sorting.SortPermutation | code/aspa_dist.c:186-188 | sorting depends only on the multiset of its input |
| Sorting.SortSorted | code/aspa_dist.c:184-193 | sorting sorted data changes nothing |
| AndersonDarling.CdfADinfP | code/aspa_dist.c:349-352 | 0 below z = .01, the series from there on (its behaviour is stated by ADinfZeroExactlyBelowCutoff) |
| AndersonDarling.ErrFix | code/aspa_dist.c:395-410 | the correction of `aspa_errfix` with the exact square n², in its three regimes split at c and .8 (stated by CutRange, LowArgument, MiddleArgument and LowCorrectionNotPositive) |
| AndersonDarling.ErrFixAsWritten | code/aspa_dist.c:395-410 | the same correction with the wrapped int product n·n, and no finite value when it wraps to 0 (stated by ErrFixAsWrittenAgrees and ErrFixOverflows) |
| AndersonDarling.ADinfZeroExactlyBelowCutoff | code/aspa_dist.c:349-352 | when the series is positive from .01 on, the result is 0 iff z < .01 |
| AndersonDarling.CutRange | code/aspa_dist.c:400 | .01265 < c <= .18835 for n >= 1, so the three regimes of the correction are ordered |
| AndersonDarling.MiddleArgument | code/aspa_dist.c:407 | in the middle regime, t = (x-c)/(.8-c) lies in [0, 1] |
| AndersonDarling.LowArgument | code/aspa_dist.c:401-403 | in the low regime with x >= 0, t = x/c lies in [0, 1) |
| AndersonDarling.LowCorrectionNotPositive | code/aspa_dist.c:401-405 | in the low regime the correction never raises the probability |
| AndersonDarling.LowScalePositive | code/aspa_dist.c:405 | .0037/n² + .00078/n + .00006 > 0 with an exact n² |
| AndersonDarling.CdfADP | code/aspa_dist.c:412-431 | x = adinf(z) plus the inlined correction with an exact n² (related to errfix by CdfADPIsCorrected) |
| AndersonDarling.AddCorrection | code/aspa_dist.c:416-430 | the inlined three-regime correction added to x, with c recomputed as at line 421 |
| AndersonDarling.CdfADPIsCorrected | code/aspa_dist.c:412-431 | aspa_cdf_AD_P(n, z) equals x + errfix(n, x) with x = adinf(z) in all three regimes |
| AndersonDarling.InlinedCorrection | code/aspa_dist.c:395-431 | at every x the regimes inlined in aspa_cdf_AD_P agree with aspa_errfix |
| AndersonDarling.CdfADPAsWritten | code/aspa_dist.c:412-431 | aspa_cdf_AD_P with the int product n·n of line 426, no finite value when it wraps to 0 (stated by the next three rows) |
| AndersonDarling.AddCorrectionAsWritten | code/aspa_dist.c:416-430 | the inlined correction with the wrapped int product of line 426 |
| AndersonDarling.CdfADPAsWrittenAgrees | code/aspa_dist.c:412-431 | up to n = 46340 the function as written returns adinf(z) + errfix(n, adinf(z)) |
| AndersonDarling.AsWrittenIsExact | code/aspa_dist.c:426 | while n·n < 2^31 the int product does not wrap and the as-written correction is the exact one |
| AndersonDarling.CdfADPOverflows | code/aspa_dist.c:426 | for n = 65536 and x = adinf(z) in the low regime, n·n wraps to 0 and the function divides by zero |
| AndersonDarling.Wrap32 | code/aspa_dist.c:405 | the int product is reduced into [-2^31, 2^31) and congruent to the exact value modulo 2^32 |
| AndersonDarling.ErrFixAsWrittenAgrees | code/aspa_dist.c:395-410 | up to n = 46340 the correction with the int product n·n is the exact correction |
| AndersonDarling.ErrFixOverflows | code/aspa_dist.c:405 | n = 65536 makes n·n wrap to 0 and the low regime divide by zero; n = 46341 already wraps to a negative divisor |
| Durbin.DurbinTransform | code/aspa_dist.c:458-468 | Durbin's transformation: spacings, sorted, weighted by (n+1-i), prefix sums, n values for n data (its properties are stated by TransformIsOrderedSample and EquallySpacedTransform) |
| Durbin.ShiftedTransform | code/aspa_dist.c:458-468 | the transformation with the weights of the loop as written, one index late, n values for n data (stated by ShiftedIsOrderedFromSmallest and ShiftedLeavesUnitInterval) |
| Durbin.DurbinModification | code/aspa_dist.c:443-471 | rejected iff some datum lies outside [0, 1]; otherwise Durbin's transformation of the data, which is n values, non-decreasing, in [0, 1] |
| Durbin.RejectionIsRange | code/aspa_dist.c:445-457 | the sorted minimum is below 0 or the sorted maximum above 1 iff some datum lies outside [0, 1] |
| Durbin.OutsideIsRejected | code/aspa_dist.c:448-457 | a datum outside [0, 1] makes one of the two tests fail |
| Durbin.InsideIsAccepted | code/aspa_dist.c:448-457 | data within [0, 1] pass both tests |
| Durbin.SpacingsOfSample | code/aspa_dist.c:458-462 | the n+1 spacings of a sorted sample of [0, 1] are >= 0 and sum to 1 |
| Durbin.Telescope | code/aspa_dist.c:458-462 | the first r spacings add up to the r-th order statistic |
| Durbin.SortedSpacingsOfSample | code/aspa_dist.c:458-463 | after sorting, the n+1 spacings are still >= 0, sorted and sum to 1 |
| Durbin.SeqSumPermutation | code/aspa_dist.c:463 | sorting the spacings does not change their sum |
| Durbin.WeightsInPlace | code/aspa_dist.c:464-465 | the downward in-place loop, reading entries it has not yet overwritten, yields (n+1-i)·(c_i - c_(i-1)) at every index |
| Durbin.WeightsPrefix | code/aspa_dist.c:464-465 | the first r weights sum to the first r spacings plus (n+1-r)·c_(r-1) |
| Durbin.WeightsTotal | code/aspa_dist.c:464-465 | the weights sum to the sum of the spacings, 1 |
| Durbin.WeightsNonNegative | code/aspa_dist.c:463-465 | weights of sorted non-negative spacings are non-negative |
| Durbin.RunningSums | code/aspa_dist.c:466-468 | the prefix-sum loop sets res[r] to the sum of the first r+1 weights |
| Durbin.PartialSumsOrdered | code/aspa_dist.c:466-468 | prefix sums of non-negative weights summing to 1 are non-decreasing and in [0, 1] |
| Durbin.TransformIsOrderedSample | code/aspa_dist.c:443-471 | Durbin's transformation of a sample of [0, 1] is an ordered sample of [0, 1] |
| Durbin.EquallySpacedTransform | code/aspa_dist.c:458-468 | the equally spaced sample j/(n+1) is carried to 1, 1, ..., 1 |
| Durbin.DurbinAsWritten | code/aspa_dist.c:443-471 | the function as written rejects iff a datum lies outside [0, 1] and otherwise first writes index n+1 of an (n+1)-element vector |
| Durbin.ReweightAsWritten | code/aspa_dist.c:464-465 | skipping the out-of-range write, the loop leaves iei[0] and iei[1] unweighted and puts (n+2-i)·(c_(i-1)-c_(i-2)) at i >= 2 |
| Durbin.DurbinSkippingOverflow | code/aspa_dist.c:443-471 | with that write skipped, the result is the prefix sums of the shifted weights |
| Durbin.ShiftedIsOrderedFromSmallest | code/aspa_dist.c:463-468 | that result is non-decreasing and non-negative, and res[0] is the smallest spacing |
| Durbin.ShiftedLeavesUnitInterval | code/aspa_dist.c:464-468 | on 0, .25, .5, .75 that result is 0, .25, 1.25, 1.25, which leaves [0, 1] |
| Durbin.EvenSampleTransformed | code/aspa_dist.c:458-468 | Durbin's transformation of 0, .25, .5, .75 is 0, 1, 1, 1 |

## Left out

- Input and output are not modelled. This covers the `fprintf` messages of
  `aspa_durbin_modification`, including the one at line 455, which says
  "<= 0" where it means "<= 1".
- `malloc`, `free` and the GSL vector plumbing are not modelled, because
  the model works on values. For the same reason "the caller's vector is
  unchanged" holds trivially.
- Floating-point rounding, overflow and underflow of doubles are not
  modelled. For example, `i*inv_n` is i/n exactly. Infinity and NaN appear
  only as explicit outcomes where the source produces them:
  `Statistics.Outcome` (NaN for empty data or a negative product, +infinity
  for a zero product in W²), `AndersonDarling.Value` (a division by a
  wrapped n·n = 0 in `ErrFixAsWritten` and `CdfADPAsWritten`), and the
  log 0 = -infinity case of `KolmogorovPlus.Term`.
- exp, log, sqrt, `gsl_sf_lnchoose`, `aspa_adinf` and the
  `aspa_cdf_ADinf_P` series are uninterpreted parameters. Their bodies and
  accuracy claims cannot be stated over `real`. The same goes for the
  bodies of `aspa_ADf`, `aspa_cdf_norm_P` and `aspa_cdf_norm_Q`, and for
  the asymptotic formula at line 99, which is taken as given.
- `gsl_sort_vector` is insertion sort in the model. Only its result
  matters, and that is unique: the sorted permutation.
- `strcmp` against "D", "D+" and "D-" is string equality.
- n >= 1 is required of the matrix power and the distribution functions,
  because `mPower` does not terminate for n <= 0 and the functions divide
  by n. Durbin's functions require non-empty data: this is a choice of
  the model, which leaves out `aspa_durbin_modification` on an empty vector
  (the statistics, by contrast, handle empty data).
- Kolmogorov.CdfK: requires sqrt(n) > 0 of the sqrt primitive, because
  the asymptotic formula divides by it.
- AndersonDarling.LowCorrectionNotPositive: requires the sqrt primitive to
  be non-negative at x/c, which the C library guarantees and an arbitrary
  parameter does not.
- KolmogorovPlus.KplusIsBirnbaumTingey: holds only when exp, log and
  lnchoose are exact on the terms with 1-d-j/n > 0 (`ExactOnTerm`). In
  doubles they are not, so the identity is the algorithm's intent, not a
  floating-point fact.
- Durbin.DurbinModification: models the reweighting loop as Durbin's
  transformation defines it. The loop as written is modelled separately
  (see Findings).
- `aspa_cdf_Kplus` does not model the `unsigned int` conversion of a
  negative or over-large floor. `KolmogorovPlus.Top` shows that the
  value is in range whenever the conversion is reached.

## Findings

| source | as written | input that shows it | evidently intended | confidence | as-written member | corrected member |
|---|---|---|---|---|---|---|
| code/aspa_dist.c:100-114 | outside the asymptotic regime, n·d <= 0 gives k <= 0 and m = 2k-1 <= -1, and line 114 updates H[(m-1)·m] in a buffer of m·m doubles | n = 1, d = 0: m = -1, write to H[2] of a one-element buffer | P(D_n <= d) = 0 whenever the exact regime is reached with n·d <= 0, because D_n >= 1/(2n) > 0 | not executed | Kolmogorov.CdfKAsWritten | Kolmogorov.CdfK |
| code/aspa_dist.c:405 | `.0037/(n*n)` multiplies two ints, so n·n overflows for n >= 46341 | n = 65536: n·n wraps to 0 and the low regime divides by zero; n = 46341 gives a negative divisor | the exact square n² | not executed | AndersonDarling.ErrFixAsWritten | AndersonDarling.ErrFix |
| code/aspa_dist.c:426 | `aspa_cdf_AD_P` inlines the same correction and again divides by the int product `n*n` | n = 65536 with adinf(z) below c: n·n wraps to 0 and the function divides by zero | the exact square n², giving adinf(z) + errfix(n, adinf(z)) | not executed | AndersonDarling.CdfADPAsWritten | AndersonDarling.CdfADP |
| code/aspa_dist.c:464-465 | the reweighting loop starts at i = n+1 and writes iei[n+1] in a vector of n+1 elements | any accepted sample, e.g. the single value 0.5 | weights for indices 0..n only | not executed | Durbin.DurbinAsWritten | Durbin.DurbinModification |
| code/aspa_dist.c:464-468 | with weight (n+2-i)·(c_(i-1)-c_(i-2)) stored at i, each weight lands one index late, and iei[0] and iei[1] are never weighted | 0, .25, .5, .75 gives 0, .25, 1.25, 1.25, outside [0, 1] | Durbin's g_i = (n+1-i)·(c_i - c_(i-1)), which gives 0, 1, 1, 1 | not executed | Durbin.DurbinSkippingOverflow | Durbin.DurbinModification |

=== FILE: anderson_darling.dfy ===
/**
 The Anderson-Darling distribution functions of code/aspa_dist.c, after
 Marsaglia and Marsaglia (2004): the guard of the limiting distribution
 `aspa_cdf_ADinf_P` (lines 349-366), the finite-sample correction
 `aspa_errfix` (lines 395-410) and `aspa_cdf_AD_P` (lines 412-431), which
 adds that correction to the short approximation `aspa_adinf`. The series
 and the rational approximation themselves are uninterpreted primitives.
 */
module AndersonDarling {
  import opened RealMath

  /** the limiting distribution: 0 below z = .01 (where it is about
      5e-53), the series otherwise */
  function CdfADinfP(lib: Primitives, z: real): real
  {
    if z < 0.01 then 0.0 else lib.adinfSeries(z)
  }

  /** When the series is positive from .01 on, the guarded function is 0
      exactly below .01. */
  lemma ADinfZeroExactlyBelowCutoff(lib: Primitives, z: real)
    requires z >= 0.01 ==> lib.adinfSeries(z) > 0.0
    ensures CdfADinfP(lib, z) == 0.0 <==> z < 0.01
  {
  }

  /** the boundary c = .01265 + .1757/n between the low and middle regimes */
  function Cut(n: nat): real
    requires n >= 1
  {
    0.01265 + 0.1757 / (n as real)
  }

  /** the degree-5 polynomial of the high regime x > .8 */
  function HighPoly(x: real): real
  {
    -130.2137 + (745.2337 - (1705.091 - (1950.646 - (1116.360 - 255.7844 * x) * x) * x) * x) * x
  }

  /** the degree-5 polynomial of the middle regime, in t = (x-c)/(.8-c) */
  function MidPoly(t: real): real
  {
    -0.00022633 + (6.54034 - (14.6538 - (14.458 - (8.259 - 1.91864 * t) * t) * t) * t) * t
  }

  /** sqrt(t) (1-t) (49t - 102), the shape of the low regime, t = x/c */
  function LowShape(lib: Primitives, t: real): real
  {
    lib.sqrt(t) * (1.0 - t) * (49.0 * t - 102.0)
  }

  /** .0037/(n*n) + .00078/n + .00006, with n*n an exact product */
  function LowScale(n: nat): real
    requires n >= 1
  {
    0.0037 / ((n * n) as real) + 0.00078 / (n as real) + 0.00006
  }

  /** .04213 + .01365/n */
  function MidScale(n: nat): real
    requires n >= 1
  {
    0.04213 + 0.01365 / (n as real)
  }

  /** `aspa_errfix(n, x)`: the correction to add to x = adinf(z) so that the
      sum is close to P(A_n <= z), in three regimes of x. */
  function ErrFix(lib: Primitives, n: nat, x: real): real
    requires n >= 1
  {
    if x > 0.8 then HighPoly(x) / (n as real)
    else if x < Cut(n) then LowShape(lib, x / Cut(n)) * LowScale(n) / (n as real)
    else MidPoly((x - Cut(n)) / (0.8 - Cut(n))) * MidScale(n) / (n as real)
  }

  /** c lies in (0.01265, 0.18835]: it is positive and below the high
      regime's bound .8 for every n >= 1, so the three regimes are
      non-empty and ordered. */
  lemma CutRange(n: nat)
    requires n >= 1
    ensures 0.01265 < Cut(n) <= 0.18835
  {
    var q := 0.1757 / (n as real);
    assert 0.0 < q <= 0.1757 by {
      DivideByAtLeastOne(0.1757, n as real);
    }
  }

  lemma DivideByAtLeastOne(a: real, n: real)
    requires a > 0.0 && n >= 1.0
    ensures 0.0 < a / n <= a
  {
    assert a / n * n == a;
  }

  /** In the middle regime c <= x <= .8 the polynomial's argument
      t = (x-c)/(.8-c) lies in [0, 1]. */
  lemma MiddleArgument(n: nat, x: real)
    requires n >= 1 && Cut(n) <= x <= 0.8
    ensures 0.0 <= (x - Cut(n)) / (0.8 - Cut(n)) <= 1.0
  {
    CutRange(n);
    UnitFraction(x - Cut(n), 0.8 - Cut(n));
  }

  /** In the low regime 0 <= x < c the argument t = x/c lies in [0, 1). */
  lemma LowArgument(n: nat, x: real)
    requires n >= 1 && 0.0 <= x < Cut(n)
    ensures 0.0 <= x / Cut(n) < 1.0
  {
    CutRange(n);
    UnitFraction(x, Cut(n));
  }

  /** 0 <= a <= b with b > 0 gives 0 <= a/b <= 1, and a/b < 1 when a < b */
  lemma UnitFraction(a: real, b: real)
    requires 0.0 <= a <= b && b > 0.0
    ensures 0.0 <= a / b <= 1.0
    ensures a < b ==> a / b < 1.0
  {
    assert a / b * b == a;
  }

  /** In the low regime the correction never raises the probability: with
      sqrt non-negative, sqrt(t) (1-t) (49t-102) <= 0 for t in [0, 1). */
  lemma LowCorrectionNotPositive(lib: Primitives, n: nat, x: real)
    requires n >= 1 && 0.0 <= x < Cut(n)
    requires lib.sqrt(x / Cut(n)) >= 0.0
    ensures ErrFix(lib, n, x) <= 0.0
  {
    var t := x / Cut(n);
    LowArgument(n, x);
    LowScalePositive(n);
    var shape := LowShape(lib, t);
    ShapeNotPositive(lib.sqrt(t), t);
    assert shape <= 0.0;
    NonPositiveScaled(shape, LowScale(n), n as real);
  }

  lemma ShapeNotPositive(r: real, t: real)
    requires r >= 0.0 && 0.0 <= t < 1.0
    ensures r * (1.0 - t) * (49.0 * t - 102.0) <= 0.0
  {
    var a := 1.0 - t;
    var b := 49.0 * t - 102.0;
    SignOfProduct(r, a);
    SignOfProduct(r * a, -b);
    assert (r * a) * b == -((r * a) * (-b));
  }

  lemma SignOfProduct(a: real, b: real)
    requires a >= 0.0 && b >= 0.0
    ensures a * b >= 0.0
  {
  }

  lemma NonPositiveScaled(a: real, b: real, n: real)
    requires a <= 0.0 && b > 0.0 && n > 0.0
    ensures a * b / n <= 0.0
  {
    assert a * b <= 0.0;
  }

  /** the low-regime scale factor is positive for every n >= 1 */
  lemma LowScalePositive(n: nat)
    requires n >= 1
    ensures LowScale(n) > 0.0
  {
    var nn := (n * n) as real;
    assert nn >= 1.0 by {
      assert n * n >= 1;
    }
    assert 0.0037 / nn > 0.0;
    assert 0.00078 / (n as real) > 0.0;
  }

  /** `aspa_cdf_AD_P(n, z)`: x = adinf(z), then x plus the correction */
  function CdfADP(lib: Primitives, n: nat, z: real): real
    requires n >= 1
  {
    AddCorrection(lib, n, lib.adinf(z))
  }

  /** x plus the correction as `aspa_cdf_AD_P` computes it, the three regimes
      written out again in its own body (line 421 recomputes the boundary c
      of line 400). */
  function AddCorrection(lib: Primitives, n: nat, x: real): real
    requires n >= 1
  {
    var nr := n as real;
    if x > 0.8 then
      x + HighPoly(x) / nr
    else
      var c := Cut(n);
      if x < c then
        var v := x / c;
        x + LowShape(lib, v) * LowScale(n) / nr
      else
        var v := (x - c) / (0.8 - c);
        x + MidPoly(v) * MidScale(n) / nr
  }

  /** The probability `aspa_cdf_AD_P` returns is adinf(z) plus
      `aspa_errfix(n, adinf(z))`: its inlined copy of the correction agrees
      with the separate function in every regime. */
  lemma CdfADPIsCorrected(lib: Primitives, n: nat, z: real)
    requires n >= 1
    ensures CdfADP(lib, n, z) == lib.adinf(z) + ErrFix(lib, n, lib.adinf(z))
  {
    InlinedCorrection(lib, n, lib.adinf(z));
  }

  /** the inlined regimes agree with `aspa_errfix` at every x */
  lemma InlinedCorrection(lib: Primitives, n: nat, x: real)
    requires n >= 1
    ensures AddCorrection(lib, n, x) == x + ErrFix(lib, n, x)
  {
  }

  /** A double-precision value as far as the model tracks it: a finite
      number, or the infinity or NaN a division by zero produces. */
  datatype Value = Finite(v: real) | NotFinite

  /** C's 32-bit signed int arithmetic on common targets: the result reduced
      into [-2^31, 2^31). Overflow is undefined behaviour in C; wrapping is
      what the usual compilers produce. */
  function Wrap32(v: int): (w: int)
    ensures -0x8000_0000 <= w < 0x8000_0000
    ensures (w - v) % 0x1_0000_0000 == 0
  {
    (v + 0x8000_0000) % 0x1_0000_0000 - 0x8000_0000
  }

  /** The low-regime scale as written: `n*n` is an int product, so the
      divisor is Wrap32(n*n); a zero divisor gives a non-finite value. */
  function LowScaleAsWritten(n: nat): Value
    requires n >= 1
  {
    var d := Wrap32(n * n);
    if d == 0 then NotFinite
    else Finite(0.0037 / (d as real) + 0.00078 / (n as real) + 0.00006)
  }

  /** `aspa_errfix` as written, with the int product in the low regime. */
  function ErrFixAsWritten(lib: Primitives, n: nat, x: real): Value
    requires n >= 1
  {
    if x > 0.8 then Finite(HighPoly(x) / (n as real))
    else if x < Cut(n) then
      match LowScaleAsWritten(n)
      case NotFinite => NotFinite
      case Finite(s) => Finite(LowShape(lib, x / Cut(n)) * s / (n as real))
    else Finite(MidPoly((x - Cut(n)) / (0.8 - Cut(n))) * MidScale(n) / (n as real))
  }

  /** Up to n = 46340 the int product does not overflow and the function as
      written computes the corrected value. */
  lemma ErrFixAsWrittenAgrees(lib: Primitives, n: nat, x: real)
    requires 1 <= n <= 46340
    ensures ErrFixAsWritten(lib, n, x) == Finite(ErrFix(lib, n, x))
  {
    assert n * n <= 46340 * 46340 < 0x8000_0000 by {
      SquareMonotone(n, 46340);
    }
    assert Wrap32(n * n) == n * n;
  }

  lemma SquareMonotone(a: nat, b: nat)
    requires a <= b
    ensures a * a <= b * b
  {
    assert a * a <= a * b <= b * b;
  }

  /** For a sample of 65536 points, n*n = 2^32 wraps to 0 and the low
      regime (x < c, for instance x = 0) divides by zero; the next size up
      already wraps to a negative divisor. */
  lemma ErrFixOverflows(lib: Primitives)
    ensures Wrap32(65536 * 65536) == 0
    ensures ErrFixAsWritten(lib, 65536, 0.0) == NotFinite
    ensures Wrap32(46341 * 46341) < 0
  {
    assert 0.0 < Cut(65536);
  }

  /** `aspa_cdf_AD_P` as written: its inlined low regime divides by the int
      product `n*n` too, so it overflows like `aspa_errfix`. */
  function CdfADPAsWritten(lib: Primitives, n: nat, z: real): Value
    requires n >= 1
  {
    AddCorrectionAsWritten(lib, n, lib.adinf(z))
  }

  /** AddCorrection with the int product n*n of line 426 */
  function AddCorrectionAsWritten(lib: Primitives, n: nat, x: real): Value
    requires n >= 1
  {
    var nr := n as real;
    if x > 0.8 then
      Finite(x + HighPoly(x) / nr)
    else
      var c := Cut(n);
      if x < c then
        var v := x / c;
        match LowScaleAsWritten(n)
        case NotFinite => NotFinite
        case Finite(scale) => Finite(x + LowShape(lib, v) * scale / nr)
      else
        var v := (x - c) / (0.8 - c);
        Finite(x + MidPoly(v) * MidScale(n) / nr)
  }

  /** Up to n = 46340 the function as written returns the corrected
      probability, adinf(z) + errfix(n, adinf(z)). */
  lemma CdfADPAsWrittenAgrees(lib: Primitives, n: nat, z: real)
    requires 1 <= n <= 46340
    ensures CdfADPAsWritten(lib, n, z) == Finite(lib.adinf(z) + ErrFix(lib, n, lib.adinf(z)))
  {
    assert n * n <= 46340 * 46340 < 0x8000_0000 by {
      SquareMonotone(n, 46340);
    }
    var x := lib.adinf(z);
    AsWrittenIsExact(lib, n, x);
    InlinedCorrection(lib, n, x);
  }

  /** when n*n does not wrap, the two versions of the inlined correction
      agree */
  lemma AsWrittenIsExact(lib: Primitives, n: nat, x: real)
    requires n >= 1 && n * n < 0x8000_0000
    ensures AddCorrectionAsWritten(lib, n, x) == Finite(AddCorrection(lib, n, x))
  {
    assert Wrap32(n * n) == n * n;
    assert LowScaleAsWritten(n) == Finite(LowScale(n));
  }

  /** For a sample of 65536 points, every z whose adinf(z) falls in the low
      regime gets a division by zero instead of a probability. */
  lemma CdfADPOverflows(lib: Primitives, z: real)
    requires lib.adinf(z) < Cut(65536)
    ensures CdfADPAsWritten(lib, 65536, z) == NotFinite
  {
    assert Wrap32(65536 * 65536) == 0;
    assert Cut(65536) < 0.8;
    assert AddCorrectionAsWritten(lib, 65536, lib.adinf(z)) == NotFinite;
  }
}

=== FILE: durbin.dfy ===
/**
 `aspa_durbin_modification(seq, res)` (code/aspa_dist.c:443-471): Durbin's
 transformation of a sample u_1 <= ... <= u_n of [0, 1] into another sample
 with the same distribution of order statistics. With the spacings
 c_1 = u_1, c_j = u_j - u_{j-1}, c_{n+1} = 1 - u_n sorted ascending as
 c_(1) <= ... <= c_(n+1), the weights are g_j = (n+2-j)(c_(j) - c_(j-1))
 with c_(0) = 0, and the result is w_r = g_1 + ... + g_r for r = 1 .. n.
 Sequences here are indexed from 0, so g_j is Weights(c)[j-1].
 */
module Durbin {
  import opened Sorting

  /** s[0] + s[1] + ... + s[|s|-1] */
  function SeqSum(s: seq<real>): real
  {
    if |s| == 0 then 0.0 else s[0] + SeqSum(s[1..])
  }

  lemma {:induction false} SeqSumAppend(a: seq<real>, b: seq<real>)
    ensures SeqSum(a + b) == SeqSum(a) + SeqSum(b)
    decreases |a|
  {
    if |a| > 0 {
      assert (a + b)[1..] == a[1..] + b;
      SeqSumAppend(a[1..], b);
    } else {
      assert a + b == b;
    }
  }

  /** the prefix of r+1 elements sums to the prefix of r plus s[r] */
  lemma PrefixStep(s: seq<real>, r: nat)
    requires r < |s|
    ensures SeqSum(s[..r + 1]) == SeqSum(s[..r]) + s[r]
  {
    assert s[..r + 1] == s[..r] + [s[r]];
    SeqSumAppend(s[..r], [s[r]]);
  }

  /** Summing in another order gives the same total. */
  lemma {:induction false} SeqSumPermutation(a: seq<real>, b: seq<real>)
    requires multiset(a) == multiset(b)
    ensures SeqSum(a) == SeqSum(b)
    decreases |a|
  {
    assert |a| == |multiset(a)| == |b|;
    if |a| > 0 {
      assert a[0] in multiset(b) by {
        assert a[0] in multiset(a);
      }
      var k :| 0 <= k < |b| && b[k] == a[0];
      var rest := b[..k] + b[k + 1..];
      RemoveAtElements(b, k);
      RemoveAtSum(b, k);
      assert multiset(a[1..]) == multiset(rest) by {
        assert a == [a[0]] + a[1..];
        assert multiset(a[1..]) == multiset(a) - multiset{a[0]};
      }
      SeqSumPermutation(a[1..], rest);
    }
  }

  /** Taking out the element at k removes it from the elements... */
  lemma RemoveAtElements(b: seq<real>, k: nat)
    requires k < |b|
    ensures multiset(b[..k] + b[k + 1..]) == multiset(b) - multiset{b[k]}
  {
    assert b == b[..k] + [b[k]] + b[k + 1..];
  }

  /** ...and from the sum. */
  lemma RemoveAtSum(b: seq<real>, k: nat)
    requires k < |b|
    ensures SeqSum(b) == b[k] + SeqSum(b[..k] + b[k + 1..])
  {
    assert b == b[..k] + [b[k]] + b[k + 1..];
    SumAround(b[..k], b[k], b[k + 1..]);
  }

  lemma SumAround(front: seq<real>, x: real, back: seq<real>)
    ensures SeqSum(front + [x] + back) == x + SeqSum(front + back)
  {
    SeqSumAppend(front + [x], back);
    SeqSumAppend(front, [x]);
    SeqSumAppend(front, back);
  }

  /** A sum of non-negative terms is non-negative. */
  lemma {:induction false} SeqSumNonNegative(s: seq<real>)
    requires forall i :: 0 <= i < |s| ==> s[i] >= 0.0
    ensures SeqSum(s) >= 0.0
    decreases |s|
  {
    if |s| > 0 {
      SeqSumNonNegative(s[1..]);
    }
  }

  /** the spacings c_1, ..., c_{n+1} of the sorted sample u, lines 458-462 */
  function Spacings(u: seq<real>): (c: seq<real>)
    requires |u| >= 1
    ensures |c| == |u| + 1
  {
    seq(|u| + 1, (i: int) requires 0 <= i <= |u| =>
      if i == 0 then u[0] else if i < |u| then u[i] - u[i - 1] else 1.0 - u[|u| - 1])
  }

  /** the spacing before c[i], 0 before the first */
  function Prev(c: seq<real>, i: nat): real
    requires i <= |c|
  {
    if i == 0 then 0.0 else c[i - 1]
  }

  /** g_j = (n+2-j)(c_(j) - c_(j-1)), stored at index j-1: with N = n+1
      spacings, Weight(c, i) = (N - i)(c[i] - c[i-1]). */
  function Weight(c: seq<real>, i: nat): real
    requires i < |c|
  {
    ((|c| - i) as real) * (c[i] - Prev(c, i))
  }

  function Weights(c: seq<real>): (g: seq<real>)
    ensures |g| == |c|
  {
    seq(|c|, (i: int) requires 0 <= i < |c| => Weight(c, i))
  }

  /** w_r = g_1 + ... + g_r for r = 1 .. n, stored at index r-1 */
  function PartialSums(g: seq<real>, n: nat): (w: seq<real>)
    requires n <= |g|
    ensures |w| == n
  {
    seq(n, (r: int) requires 0 <= r < n => SeqSum(g[..r + 1]))
  }

  /** Durbin's transformation of a sample u of [0, 1]. */
  function DurbinTransform(u: seq<real>): (w: seq<real>)
    requires |u| >= 1
    ensures |w| == |u|
  {
    PartialSums(Weights(Sort(Spacings(Sort(u)))), |u|)
  }

  predicate InUnitInterval(s: seq<real>)
  {
    forall i :: 0 <= i < |s| ==> 0.0 <= s[i] <= 1.0
  }

  datatype Result = Rejected | Modified(w: seq<real>)

  /**
   `aspa_durbin_modification` with its reweighting loop as Durbin's
   definition needs it: the data are copied and sorted, rejected (-1) when
   the smallest is below 0 or the largest above 1, and otherwise replaced
   by the partial sums of the weights of their sorted spacings.
   */
  method DurbinModification(data: seq<real>) returns (r: Result)
    requires |data| >= 1
    ensures r == Rejected <==> !InUnitInterval(data)
    ensures r.Modified? ==> r.w == DurbinTransform(data)
    ensures r.Modified? ==> |r.w| == |data| && Sorted(r.w) && InUnitInterval(r.w)
  {
    var res := Sort(data);
    var n := |res|;
    if res[0] < 0.0 {
      RejectionIsRange(data, res);
      return Rejected;
    }
    if res[n - 1] > 1.0 {
      RejectionIsRange(data, res);
      return Rejected;
    }
    RejectionIsRange(data, res);
    var iei := Sort(Spacings(res));
    var g := WeightsInPlace(iei);
    var w := RunningSums(g, n);
    TransformIsOrderedSample(data);
    return Modified(w);
  }

  /** The two tests of lines 448-457 on the sorted copy reject exactly the
      data with an element outside [0, 1]. */
  lemma RejectionIsRange(data: seq<real>, r: seq<real>)
    requires |r| >= 1 && Sorted(r) && multiset(r) == multiset(data)
    ensures (r[0] < 0.0 || r[|r| - 1] > 1.0) <==> !InUnitInterval(data)
  {
    if !InUnitInterval(data) {
      var i :| 0 <= i < |data| && !(0.0 <= data[i] <= 1.0);
      OutsideIsRejected(data, r, i);
    } else {
      InsideIsAccepted(data, r);
    }
  }

  /** An element outside [0, 1] puts the first or the last of the sorted
      data r outside as well. */
  lemma OutsideIsRejected(data: seq<real>, r: seq<real>, i: nat)
    requires Sorted(r) && multiset(r) == multiset(data)
    requires i < |data| && !(0.0 <= data[i] <= 1.0)
    ensures r[0] < 0.0 || r[|r| - 1] > 1.0
  {
    var x := data[i];
    assert x in multiset(data);
    SortedBounds(r, x);
  }

  /** The sorted rearrangement r of data within [0, 1] passes both tests. */
  lemma InsideIsAccepted(data: seq<real>, r: seq<real>)
    requires |r| >= 1 && multiset(r) == multiset(data) && InUnitInterval(data)
    ensures 0.0 <= r[0] && r[|r| - 1] <= 1.0
  {
    var first := PermutationSource(data, r, 0);
    var last := PermutationSource(data, r, |r| - 1);
  }

  /** The reweighting loop in place, from the top index down so that each
      step still reads the unmodified spacing below it, then the first
      weight (n+1) c_(1). */
  method WeightsInPlace(c: seq<real>) returns (g: seq<real>)
    requires |c| >= 1
    ensures g == Weights(c)
  {
    var N := |c|;
    g := c;
    var i := N - 1;
    while i > 0
      invariant 0 <= i < N && |g| == N
      invariant forall j :: 0 <= j <= i ==> g[j] == c[j]
      invariant forall j :: i < j < N ==> g[j] == Weights(c)[j]
    {
      g := g[i := ((N - i) as real) * (g[i] - g[i - 1])];
      i := i - 1;
    }
    assert Weight(c, 0) == (N as real) * (c[0] - 0.0);
    g := g[0 := (N as real) * g[0]];
    assert forall j :: 0 <= j < N ==> g[j] == Weights(c)[j];
  }

  /** The final loop, lines 466-468: res[0] = g[0], res[i] = res[i-1] + g[i]. */
  method RunningSums(g: seq<real>, n: nat) returns (w: seq<real>)
    requires 1 <= n <= |g|
    ensures w == PartialSums(g, n)
  {
    w := [g[0]];
    assert g[..1] == [g[0]];
    var i := 1;
    while i < n
      invariant 1 <= i <= n && |w| == i
      invariant forall r :: 0 <= r < i ==> w[r] == SeqSum(g[..r + 1])
    {
      PrefixStep(g, i);
      w := w + [w[i - 1] + g[i]];
      i := i + 1;
    }
  }

  /** For a sorted sample of [0, 1] the spacings are non-negative and add
      up to 1. */
  lemma SpacingsOfSample(u: seq<real>)
    requires |u| >= 1 && Sorted(u) && InUnitInterval(u)
    ensures forall i :: 0 <= i < |u| + 1 ==> Spacings(u)[i] >= 0.0
    ensures SeqSum(Spacings(u)) == 1.0
  {
    var c := Spacings(u);
    var n := |u|;
    forall r | 1 <= r <= n
      ensures SeqSum(c[..r]) == u[r - 1]
    {
      Telescope(u, r);
    }
    PrefixStep(c, n);
    assert c[..n + 1] == c;
  }

  lemma {:induction false} Telescope(u: seq<real>, r: nat)
    requires 1 <= r <= |u|
    ensures SeqSum(Spacings(u)[..r]) == u[r - 1]
  {
    var c := Spacings(u);
    if r == 1 {
      assert c[..1] == [u[0]];
    } else {
      Telescope(u, r - 1);
      PrefixStep(c, r - 1);
    }
  }

  /** (N - r) times the spacing before index r */
  function Tail(c: seq<real>, r: nat): real
    requires r <= |c|
  {
    ((|c| - r) as real) * Prev(c, r)
  }

  /** Summation by parts: the weights of the first r spacings add up to
      those spacings plus (N - r) times the last of them. */
  lemma {:induction false} WeightsPrefix(c: seq<real>, r: nat)
    requires r <= |c|
    ensures SeqSum(Weights(c)[..r]) == SeqSum(c[..r]) + Tail(c, r)
  {
    if r > 0 {
      var g := Weights(c);
      WeightsPrefix(c, r - 1);
      PrefixStep(g, r - 1);
      PrefixStep(c, r - 1);
      assert g[r - 1] == Weight(c, r - 1);
      WeightTelescopes(c, r - 1);
    }
  }

  /** one step of the summation by parts */
  lemma WeightTelescopes(c: seq<real>, i: nat)
    requires i < |c|
    ensures Tail(c, i) + Weight(c, i) == c[i] + Tail(c, i + 1)
  {
    var k := (|c| - i) as real;
    var p := Prev(c, i);
    var x := c[i];
    assert Tail(c, i) == k * p;
    assert Weight(c, i) == k * (x - p);
    assert Tail(c, i + 1) == (k - 1.0) * x;
    AbelStep(k, p, x);
  }

  lemma AbelStep(k: real, p: real, x: real)
    ensures k * p + k * (x - p) == x + (k - 1.0) * x
  {
  }

  /** The weights of all N spacings add up to the spacings' sum. */
  lemma WeightsTotal(c: seq<real>)
    ensures SeqSum(Weights(c)) == SeqSum(c)
  {
    WeightsPrefix(c, |c|);
    assert Tail(c, |c|) == 0.0;
    assert Weights(c)[..|c|] == Weights(c);
    assert c[..|c|] == c;
  }

  /** Sorted non-negative spacings give non-negative weights. */
  lemma WeightsNonNegative(c: seq<real>)
    requires Sorted(c) && forall i :: 0 <= i < |c| ==> c[i] >= 0.0
    ensures forall i :: 0 <= i < |c| ==> Weights(c)[i] >= 0.0
  {
    forall i | 0 <= i < |c|
      ensures Weights(c)[i] >= 0.0
    {
      NonNegativeProduct((|c| - i) as real, c[i] - Prev(c, i));
      assert Weights(c)[i] == Weight(c, i);
    }
  }

  lemma NonNegativeProduct(a: real, b: real)
    requires a >= 0.0 && b >= 0.0
    ensures a * b >= 0.0
  {
  }

  /** The partial sums of non-negative weights totalling 1 form a sorted
      sample of [0, 1]. */
  lemma PartialSumsOrdered(g: seq<real>, n: nat)
    requires n <= |g|
    requires forall i :: 0 <= i < |g| ==> g[i] >= 0.0
    requires SeqSum(g) == 1.0
    ensures Sorted(PartialSums(g, n)) && InUnitInterval(PartialSums(g, n))
  {
    var w := PartialSums(g, n);
    forall r | 0 <= r < n
      ensures 0.0 <= w[r] <= 1.0
    {
      PrefixBounded(g, r + 1);
    }
    forall a, b | 0 <= a < b < n
      ensures w[a] <= w[b]
    {
      PrefixMonotone(g, a + 1, b + 1);
    }
  }

  /** a prefix of non-negative terms totalling 1 sums into [0, 1] */
  lemma PrefixBounded(g: seq<real>, k: nat)
    requires k <= |g|
    requires forall i :: 0 <= i < |g| ==> g[i] >= 0.0
    requires SeqSum(g) == 1.0
    ensures 0.0 <= SeqSum(g[..k]) <= 1.0
  {
    assert g == g[..k] + g[k..];
    SeqSumAppend(g[..k], g[k..]);
    SeqSumNonNegative(g[..k]);
    SeqSumNonNegative(g[k..]);
  }

  /** with non-negative terms a longer prefix has the larger sum */
  lemma PrefixMonotone(g: seq<real>, a: nat, b: nat)
    requires a <= b <= |g|
    requires forall i :: 0 <= i < |g| ==> g[i] >= 0.0
    ensures SeqSum(g[..a]) <= SeqSum(g[..b])
  {
    assert g[..b] == g[..a] + g[a..b];
    SeqSumAppend(g[..a], g[a..b]);
    SeqSumNonNegative(g[a..b]);
  }

  /** Durbin's transformation of a sample of [0, 1] is again a sorted
      sample of [0, 1] of the same size. */
  lemma TransformIsOrderedSample(data: seq<real>)
    requires |data| >= 1 && InUnitInterval(data)
    ensures Sorted(DurbinTransform(data)) && InUnitInterval(DurbinTransform(data))
  {
    var c := SortedSpacingsOfSample(data);
    WeightsNonNegative(c);
    WeightsTotal(c);
    PartialSumsOrdered(Weights(c), |data|);
  }

  /** The sorted spacings of a sample of [0, 1]: n+1 non-negative numbers,
      in ascending order, that add up to 1. */
  lemma SortedSpacingsOfSample(data: seq<real>) returns (c: seq<real>)
    requires |data| >= 1 && InUnitInterval(data)
    ensures c == Sort(Spacings(Sort(data)))
    ensures |c| == |data| + 1 && Sorted(c)
    ensures forall i :: 0 <= i < |c| ==> c[i] >= 0.0
    ensures SeqSum(c) == 1.0
  {
    var u := Sort(data);
    assert InUnitInterval(u) by {
      forall i | 0 <= i < |u|
        ensures 0.0 <= u[i] <= 1.0
      {
        var k := PermutationSource(data, u, i);
      }
    }
    var sp := Spacings(u);
    SpacingsOfSample(u);
    c := Sort(sp);
    SeqSumPermutation(c, sp);
    forall i | 0 <= i < |c|
      ensures c[i] >= 0.0
    {
      var k := PermutationSource(sp, c, i);
    }
  }

  /** What the function as written reaches: rejection, or the first
      `gsl_vector_set` outside the vector, which GSL's range check reports
      as an error (by default the program aborts). */
  datatype AsWritten = RejectedAsWritten | OutOfRange(index: int, size: int)

  /**
   `aspa_durbin_modification` as written: the reweighting loop of lines
   464-465 starts at i = n+1 and so first sets iei[n+1] in a vector of n+1
   elements.
   */
  method DurbinAsWritten(data: seq<real>) returns (r: AsWritten)
    requires |data| >= 1
    ensures r == RejectedAsWritten <==> !InUnitInterval(data)
    ensures InUnitInterval(data) ==> r == OutOfRange(|data| + 1, |data| + 1)
  {
    var res := Sort(data);
    var n := |res|;
    RejectionIsRange(data, res);
    if res[0] < 0.0 || res[n - 1] > 1.0 {
      return RejectedAsWritten;
    }
    var iei := Sort(Spacings(res));
    var i := n + 1;
    if !(i < |iei|) {
      return OutOfRange(i, |iei|);
    }
    assert false;
  }

  /** What the reweighting loop of lines 464-465 leaves in iei when the
      write past the end is skipped: the weight g_i lands at index i instead
      of i-1, iei[0] and iei[1] keep c_(1) and c_(2), and (n+1) c_(1) is
      never formed. */
  function ShiftedWeights(c: seq<real>): (g: seq<real>)
    requires |c| >= 2
    ensures |g| == |c|
  {
    seq(|c|, (i: int) requires 0 <= i < |c| => ShiftedWeight(c, i))
  }

  /** element i of ShiftedWeights */
  function ShiftedWeight(c: seq<real>, i: nat): real
    requires 2 <= |c| && i < |c|
  {
    if i < 2 then c[i] else ((|c| + 1 - i) as real) * (c[i - 1] - c[i - 2])
  }

  /** The result of the function as written when the write past the end is
      skipped. */
  function ShiftedTransform(u: seq<real>): (w: seq<real>)
    requires |u| >= 1
    ensures |w| == |u|
  {
    PartialSums(ShiftedWeights(Sort(Spacings(Sort(u)))), |u|)
  }

  /**
   The reweighting loop of lines 464-465 as written, for i = n+1 down to 2:
   iei[i] = (n+2-i) (iei[i-1] - iei[i-2]). A set at an index outside the
   vector is reported (outOfRange) and skipped, which is what
   `gsl_vector_set` does once GSL's error handler no longer aborts. The
   first step, at i = n+1, is always outside.
   */
  method ReweightAsWritten(c: seq<real>) returns (g: seq<real>, outOfRange: bool)
    requires |c| >= 2
    ensures outOfRange
    ensures g == ShiftedWeights(c)
  {
    var N := |c|;
    g := c;
    outOfRange := false;
    var i := N;
    while i > 1
      invariant 1 <= i <= N && |g| == N
      invariant outOfRange <==> i < N
      invariant forall j :: 0 <= j <= i && j < N ==> g[j] == c[j]
      invariant forall j :: i < j < N ==> g[j] == ShiftedWeights(c)[j]
    {
      if i < N {
        g := g[i := ((N + 1 - i) as real) * (g[i - 1] - g[i - 2])];
        assert g[i] == ShiftedWeight(c, i);
      } else {
        outOfRange := true;
      }
      i := i - 1;
    }
    assert forall j :: 0 <= j < N ==> g[j] == ShiftedWeights(c)[j];
  }

  /** `aspa_durbin_modification` as written, with the out-of-range set
      skipped: the result is ShiftedTransform of the data. */
  method DurbinSkippingOverflow(data: seq<real>) returns (r: Result)
    requires |data| >= 1
    ensures r == Rejected <==> !InUnitInterval(data)
    ensures r.Modified? ==> r.w == ShiftedTransform(data)
  {
    var res := Sort(data);
    var n := |res|;
    RejectionIsRange(data, res);
    if res[0] < 0.0 || res[n - 1] > 1.0 {
      return Rejected;
    }
    var iei := Sort(Spacings(res));
    var g, outOfRange := ReweightAsWritten(iei);
    var w := RunningSums(g, n);
    return Modified(w);
  }

  /** What the skipped-write result does keep: for a sample of [0, 1] it is
      a non-decreasing sequence of non-negative prefix sums whose first
      element is the smallest spacing. */
  lemma ShiftedIsOrderedFromSmallest(data: seq<real>)
    requires |data| >= 1 && InUnitInterval(data)
    ensures Sorted(ShiftedTransform(data))
    ensures ShiftedTransform(data)[0] == Sort(Spacings(Sort(data)))[0]
    ensures forall r :: 0 <= r < |data| ==> ShiftedTransform(data)[r] >= 0.0
  {
    var c := SortedSpacingsOfSample(data);
    var g := ShiftedWeights(c);
    ShiftedWeightsNonNegative(c);
    PartialSumsNonDecreasing(g, |data|);
    FirstPartialSum(g, |data|);
    assert g[0] == ShiftedWeight(c, 0);
  }

  /** the first partial sum is the first term */
  lemma FirstPartialSum(g: seq<real>, n: nat)
    requires 1 <= n <= |g|
    ensures PartialSums(g, n)[0] == g[0]
  {
    PrefixStep(g, 0);
    assert g[..0] == [];
  }

  /** The partial sums of non-negative terms are non-negative and
      non-decreasing. */
  lemma PartialSumsNonDecreasing(g: seq<real>, n: nat)
    requires n <= |g|
    requires forall i :: 0 <= i < |g| ==> g[i] >= 0.0
    ensures Sorted(PartialSums(g, n))
    ensures forall r :: 0 <= r < n ==> PartialSums(g, n)[r] >= 0.0
  {
    var w := PartialSums(g, n);
    forall r | 0 <= r < n
      ensures w[r] >= 0.0
    {
      SeqSumNonNegative(g[..r + 1]);
    }
    forall a, b | 0 <= a < b < n
      ensures w[a] <= w[b]
    {
      PrefixMonotone(g, a + 1, b + 1);
    }
  }

  /** Sorted non-negative spacings give non-negative shifted weights. */
  lemma ShiftedWeightsNonNegative(c: seq<real>)
    requires |c| >= 2 && Sorted(c) && forall i :: 0 <= i < |c| ==> c[i] >= 0.0
    ensures forall i :: 0 <= i < |c| ==> ShiftedWeights(c)[i] >= 0.0
  {
    forall i | 2 <= i < |c|
      ensures ShiftedWeights(c)[i] >= 0.0
    {
      NonNegativeProduct((|c| + 1 - i) as real, c[i - 1] - c[i - 2]);
      assert ShiftedWeights(c)[i] == ShiftedWeight(c, i);
    }
  }

  /** u is the equally spaced sample 1/(n+1), 2/(n+1), ..., n/(n+1) */
  predicate EquallySpaced(u: seq<real>)
  {
    forall i :: 0 <= i < |u| ==> u[i] == ((i + 1) as real) / ((|u| + 1) as real)
  }

  /** Durbin's transformation puts all the weight of equal spacings on the
      first one: the equally spaced sample is carried to 1, 1, ..., 1. */
  lemma EquallySpacedTransform(u: seq<real>)
    requires |u| >= 1 && EquallySpaced(u)
    ensures DurbinTransform(u) == seq(|u|, (r: int) => 1.0)
  {
    assert Sort(u) == u by {
      EquallySpacedSorted(u);
      SortSorted(u);
    }
    var sp := Spacings(u);
    assert Sort(sp) == sp by {
      EqualSpacings(u, sp);
      SortSorted(sp);
    }
    EqualSpacings(u, sp);
    UnitWeights(sp, Weights(sp));
    AllOnes(Weights(sp), |u|);
  }

  /** running sums of 1, 0, 0, ... are all 1 */
  lemma AllOnes(g: seq<real>, n: nat)
    requires 1 <= n <= |g| && g[0] == 1.0
    requires forall i :: 1 <= i < |g| ==> g[i] == 0.0
    ensures PartialSums(g, n) == seq(n, (r: int) => 1.0)
  {
    forall r | 0 <= r < n
      ensures PartialSums(g, n)[r] == 1.0
    {
      UnitThenZeros(g, r + 1);
    }
  }

  lemma EquallySpacedSorted(u: seq<real>)
    requires EquallySpaced(u)
    ensures Sorted(u)
  {
    var N := (|u| + 1) as real;
    forall i, j | 0 <= i < j < |u|
      ensures u[i] <= u[j]
    {
      DivideMonotone((i + 1) as real, (j + 1) as real, N);
    }
  }

  /** all n+1 spacings of the equally spaced sample are 1/(n+1) */
  lemma EqualSpacings(u: seq<real>, sp: seq<real>)
    requires |u| >= 1 && EquallySpaced(u) && sp == Spacings(u)
    ensures |sp| == |u| + 1
    ensures forall i :: 0 <= i < |sp| ==> sp[i] == 1.0 / (|sp| as real)
    ensures Sorted(sp)
  {
    forall i | 0 <= i < |sp|
      ensures sp[i] == 1.0 / (|sp| as real)
    {
      EqualGap(u, i);
    }
  }

  /** Weights of N equal spacings 1/N: 1 for the first, 0 for the rest. */
  lemma UnitWeights(c: seq<real>, g: seq<real>)
    requires |c| >= 1 && g == Weights(c)
    requires forall i :: 0 <= i < |c| ==> c[i] == 1.0 / (|c| as real)
    ensures g[0] == 1.0
    ensures forall i :: 1 <= i < |g| ==> g[i] == 0.0
  {
    var N := |c| as real;
    assert g[0] == Weight(c, 0) == N * (1.0 / N - 0.0);
    forall i | 1 <= i < |g|
      ensures g[i] == 0.0
    {
      assert g[i] == Weight(c, i);
      assert c[i] == c[i - 1];
    }
  }

  /** each spacing of the equally spaced sample is 1/(n+1) */
  lemma EqualGap(u: seq<real>, i: nat)
    requires |u| >= 1 && EquallySpaced(u) && i <= |u|
    ensures Spacings(u)[i] == 1.0 / ((|u| + 1) as real)
  {
    var N := (|u| + 1) as real;
    if i == 0 {
    } else if i < |u| {
      SubtractOverN((i + 1) as real, i as real, N);
    } else {
      assert u[|u| - 1] == (|u| as real) / N;
      SubtractOverN(N, |u| as real, N);
      assert N / N == 1.0;
    }
  }

  lemma SubtractOverN(a: real, b: real, N: real)
    requires N > 0.0 && a == b + 1.0
    ensures a / N - b / N == 1.0 / N
  {
  }

  lemma DivideMonotone(a: real, b: real, N: real)
    requires N > 0.0 && a <= b
    ensures a / N <= b / N
  {
  }

  /** a prefix of 1 followed by zeros sums to 1 */
  lemma {:induction false} UnitThenZeros(g: seq<real>, k: nat)
    requires 1 <= k <= |g| && g[0] == 1.0
    requires forall i :: 1 <= i < |g| ==> g[i] == 0.0
    ensures SeqSum(g[..k]) == 1.0
  {
    PrefixStep(g, k - 1);
    if k == 1 {
      assert g[..0] == [];
    } else {
      UnitThenZeros(g, k - 1);
    }
  }

  /** u is the evenly spread sample 0, .25, .5, .75 */
  predicate EvenSample(u: seq<real>)
  {
    |u| == 4 && u[0] == 0.0 && u[1] == 0.25 && u[2] == 0.5 && u[3] == 0.75
  }

  /** c is 0, .25, .25, .25, .25 */
  predicate EvenSpacingsAre(c: seq<real>)
  {
    |c| == 5 && c[0] == 0.0 && c[1] == 0.25 && c[2] == 0.25 && c[3] == 0.25 && c[4] == 0.25
  }

  /** The sorted spacings of the evenly spread sample. */
  lemma EvenSpacings(u: seq<real>)
    requires EvenSample(u)
    ensures EvenSpacingsAre(Sort(Spacings(Sort(u))))
  {
    EvenSampleSorted(u);
    var sp := Spacings(u);
    assert EvenSpacingsAre(sp);
    EvenSpacingsSorted(sp);
  }

  lemma EvenSampleSorted(u: seq<real>)
    requires EvenSample(u)
    ensures Sort(u) == u
  {
    assert Sorted(u);
    SortSorted(u);
  }

  lemma EvenSpacingsSorted(c: seq<real>)
    requires EvenSpacingsAre(c)
    ensures Sort(c) == c
  {
    assert Sorted(c);
    SortSorted(c);
  }

  /** The evenly spread sample 0, .25, .5, .75 is carried to 0, .25, 1.25,
      1.25 by the shifted loop: values above 1, not a sample of [0, 1]. */
  lemma ShiftedLeavesUnitInterval(u: seq<real>)
    requires EvenSample(u)
    ensures ShiftedTransform(u) == [0.0, 0.25, 1.25, 1.25]
    ensures !InUnitInterval(ShiftedTransform(u))
  {
    EvenSpacings(u);
    ShiftedOfEvenSpacings(Sort(Spacings(Sort(u))));
    assert ShiftedTransform(u)[2] > 1.0;
  }

  lemma ShiftedOfEvenSpacings(c: seq<real>)
    requires EvenSpacingsAre(c)
    ensures PartialSums(ShiftedWeights(c), 4) == [0.0, 0.25, 1.25, 1.25]
  {
    var g := ShiftedWeights(c);
    assert g[0] == 0.0 && g[1] == 0.25 && g[2] == 1.0 && g[3] == 0.0;
    PrefixSums4(g);
  }

  /** Durbin's transformation of the same sample is 0, 1, 1, 1. */
  lemma EvenSampleTransformed(u: seq<real>)
    requires EvenSample(u)
    ensures DurbinTransform(u) == [0.0, 1.0, 1.0, 1.0]
  {
    EvenSpacings(u);
    WeightsOfEvenSpacings(Sort(Spacings(Sort(u))));
  }

  lemma WeightsOfEvenSpacings(c: seq<real>)
    requires EvenSpacingsAre(c)
    ensures PartialSums(Weights(c), 4) == [0.0, 1.0, 1.0, 1.0]
  {
    var g := Weights(c);
    assert g[0] == Weight(c, 0) == 0.0;
    assert g[1] == Weight(c, 1) == 1.0;
    assert g[2] == Weight(c, 2) == 0.0;
    assert g[3] == Weight(c, 3) == 0.0;
    PrefixSums4(g);
  }

  /** the first four partial sums of a sequence of at least four terms */
  lemma PrefixSums4(g: seq<real>)
    requires |g| >= 4
    ensures PartialSums(g, 4) == [g[0], g[0] + g[1], g[0] + g[1] + g[2], g[0] + g[1] + g[2] + g[3]]
  {
    var w := PartialSums(g, 4);
    PrefixStep(g, 0);
    PrefixStep(g, 1);
    PrefixStep(g, 2);
    PrefixStep(g, 3);
    assert g[..0] == [];
    assert w[0] == SeqSum(g[..1]);
  }
}

=== FILE: kolmogorov.dfy ===
/**
 `aspa_cdf_K` of code/aspa_dist.c:95-131, the distribution function
 P(D_n <= d) of the two-sided Kolmogorov statistic D_n for a sample of
 size n (Marsaglia, Tsang and Wang's `K`). For large d*d*n it returns an
 asymptotic formula; otherwise it builds an m x m band matrix H, raises it
 to the n-th power with `mPower`, reads the centre entry and multiplies it
 by n!/n^n, keeping a decimal exponent so that nothing under- or overflows.
 */
module Kolmogorov {
  import opened RealMath
  import opened Matrices
  import opened MatrixPower

  /** The test of code/aspa_dist.c:99: with s = d*d*n, the asymptotic form
      is used when s > 7.24, or when s > 3.76 and n > 99. */
  predicate UsesAsymptotic(n: nat, d: real)
  {
    var s := d * d * (n as real);
    s > 7.24 || (s > 3.76 && n > 99)
  }

  /** 1 - 2 exp(-(2.000071 + .331/sqrt(n) + 1.409/n) * d*d*n) */
  function Asymptotic(lib: Primitives, n: nat, d: real): real
    requires n >= 1 && lib.sqrt(n as real) > 0.0
  {
    var s := d * d * (n as real);
    1.0 - 2.0 * lib.exp(-(2.000071 + 0.331 / lib.sqrt(n as real) + 1.409 / (n as real)) * s)
  }

  /** k = ceil(n*d), m = 2k-1 (the order of H) and h = k - n*d */
  datatype Shape = Shape(k: int, m: int, h: real)

  function ShapeOf(n: nat, d: real): Shape
  {
    var k := Ceil((n as real) * d);
    Shape(k, 2 * k - 1, k as real - (n as real) * d)
  }

  /** For a positive n*d the matrix is at least 1 x 1 and h lies in
      [0, 1). */
  lemma ShapeFacts(n: nat, d: real)
    requires (n as real) * d > 0.0
    ensures ShapeOf(n, d).k >= 1 && ShapeOf(n, d).m >= 1
    ensures 0.0 <= ShapeOf(n, d).h < 1.0
  {
  }

  /** The entry `mPower` watches when rescaling, (m/2, m/2), is the entry
      (k-1, k-1) whose value the distribution function returns. */
  lemma CentreIndex(n: nat, d: real)
    requires (n as real) * d > 0.0
    ensures ShapeOf(n, d).m / 2 == ShapeOf(n, d).k - 1
  {
    var sh := ShapeOf(n, d);
    assert sh.m == 2 * (sh.k - 1) + 1;
  }

  /** x / 1 / 2 / ... / g, the divisions of code/aspa_dist.c:115-118 done one
      factor at a time */
  function Divided(x: real, g: nat): real
  {
    if g == 0 then x else Divided(x, g - 1) / (g as real)
  }

  lemma DivideTwice(x: real, a: real, b: real, ab: real)
    requires a > 0.0 && b > 0.0 && ab == a * b
    ensures x / a / b == x / ab
  {
  }

  /** Dividing by 1, 2, ..., g in turn is dividing by g!. */
  lemma {:induction false} DividedByFactorial(x: real, g: nat)
    ensures Divided(x, g) == x / Fact(g)
  {
    if g > 0 {
      DividedByFactorial(x, g - 1);
      DivideTwice(x, Fact(g - 1), g as real, Fact(g));
    }
  }

  /** Entry (i, j) of H after code/aspa_dist.c:105-114, before the
      divisions: 1 on and below the superdiagonal, minus h^(i+1) in the
      first column, minus h^(m-i) in the last row (so the corner loses
      h^m twice), plus (2h-1)^m in the corner when 2h-1 > 0. */
  function Undivided(h: real, m: nat, i: nat, j: nat): real
    requires i < m && j < m
  {
    (if i + 1 >= j then 1.0 else 0.0)
    - (if j == 0 then Pow(h, i + 1) else 0.0)
    - (if i == m - 1 then Pow(h, m - j) else 0.0)
    + (if i == m - 1 && j == 0 && 2.0 * h - 1.0 > 0.0 then Pow(2.0 * h - 1.0, m) else 0.0)
  }

  /** Entry (i, j) of H once code/aspa_dist.c:115-118 has divided it by
      1, 2, ..., i-j+1 (entries with i-j+1 <= 0 are not divided). */
  function HEntry(h: real, m: nat, i: nat, j: nat): real
    requires i < m && j < m
  {
    if i + 1 > j then Divided(Undivided(h, m, i, j), i + 1 - j) else Undivided(h, m, i, j)
  }

  /** The matrix H of `aspa_cdf_K`; it vanishes above the superdiagonal. */
  function HMatrix(h: real, m: nat): (H: Matrix)
    ensures IsSquare(H, m)
    ensures forall i, j :: 0 <= i < m && 0 <= j < m ==> H[i][j] == HEntry(h, m, i, j)
    ensures forall i, j :: 0 <= i < m && 0 <= j < m && j > i + 1 ==> H[i][j] == 0.0
  {
    seq(m, (i: int) requires 0 <= i < m => seq(m, (j: int) requires 0 <= j < m => HEntry(h, m, i, j)))
  }

  /** H as Marsaglia, Tsang and Wang describe it: 1/(i-j+1)! on and below
      the superdiagonal, except the first column, (1 - h^(i+1))/(i+1)!, the
      last row, (1 - h^(m-j))/(m-j)!, and the bottom-left corner,
      (1 - 2h^m + max(0, 2h-1)^m)/m!. */
  function ReferenceEntry(h: real, m: nat, i: nat, j: nat): real
    requires i < m && j < m
  {
    if j > i + 1 then 0.0
    else if i == m - 1 && j == 0 then
      (1.0 - 2.0 * Pow(h, m) + (if 2.0 * h - 1.0 > 0.0 then Pow(2.0 * h - 1.0, m) else 0.0)) / Fact(m)
    else if j == 0 then (1.0 - Pow(h, i + 1)) / Fact(i + 1)
    else if i == m - 1 then (1.0 - Pow(h, m - j)) / Fact(m - j)
    else 1.0 / Fact(i + 1 - j)
  }

  /** The loops of code/aspa_dist.c:105-118 build exactly the reference H. */
  lemma HMatchesReference(h: real, m: nat, i: nat, j: nat)
    requires i < m && j < m
    ensures HMatrix(h, m)[i][j] == ReferenceEntry(h, m, i, j)
  {
    if i + 1 > j {
      DividedByFactorial(Undivided(h, m, i, j), i + 1 - j);
    }
  }

  /** (H^n)[k-1][k-1], the entry of the n-th power that the formula reads */
  function Centre(n: nat, d: real): real
    requires n >= 1 && (n as real) * d > 0.0
  {
    ShapeFacts(n, d);
    var sh := ShapeOf(n, d);
    MatPow(HMatrix(sh.h, sh.m), sh.m, n)[sh.k - 1][sh.k - 1]
  }

  /** Marsaglia's formula P(D_n <= d) = n!/n^n * (H^n)[k-1][k-1], evaluated
      exactly. */
  function ExactK(n: nat, d: real): real
    requires n >= 1 && (n as real) * d > 0.0
  {
    Normalised(Centre(n, d), n)
  }

  /** x * n!/n^n, the factor Marsaglia's formula puts in front of (H^n)[k-1][k-1] */
  function Normalised(x: real, n: nat): real
    requires n >= 1
  {
    PowPositive(n as real, n);
    x * Fact(n) / Pow(n as real, n)
  }

  /** the number a mantissa s and a decimal exponent e stand for: s * 10^e */
  function Decimal(s: real, e: int): real
  {
    s * Pow10(e)
  }

  /** what one pass of the loop does to the number tracked: x * i / n */
  function Pass(x: real, i: nat, n: nat): real
    requires n >= 1
  {
    x * (i as real) / (n as real)
  }

  /** the tracked number after passes 1, ..., i */
  function Passes(x: real, n: nat, i: nat): real
    requires n >= 1
  {
    if i == 0 then x else Pass(Passes(x, n, i - 1), i, n)
  }

  /** One pass in multiplicative form: if y * p == x * f, then
      Pass(y, i, n) * (n * p) == x * (i * f). The terms of the inductive
      step are parameters so that no unfolding shares the arithmetic. */
  lemma PassStep(a: real, b: real, c: real, y: real, x: real, f: real, p: real, i: nat, n: nat)
    requires n >= 1 && y * p == x * f
    requires a == Pass(y, i, n) && b == (n as real) * p && c == (i as real) * f
    ensures a * b == x * c
  {
    assert Pass(y, i, n) * (n as real) == y * (i as real);
  }

  /** The passes multiply by 1/n, 2/n, ..., i/n, that is by i!/n^i. */
  lemma {:induction false} PassesClosedForm(x: real, n: nat, i: nat)
    requires n >= 1
    ensures Passes(x, n, i) * Pow(n as real, i) == x * Fact(i)
    decreases i
  {
    if i > 0 {
      PassesClosedForm(x, n, i - 1);
      ClosedFormStep(x, n, i);
    }
  }

  lemma ClosedFormStep(x: real, n: nat, i: nat)
    requires n >= 1 && i >= 1
    requires Passes(x, n, i - 1) * Pow(n as real, i - 1) == x * Fact(i - 1)
    ensures Passes(x, n, i) * Pow(n as real, i) == x * Fact(i)
  {
    PassStep(Passes(x, n, i), Pow(n as real, i), Fact(i), Passes(x, n, i - 1), x, Fact(i - 1), Pow(n as real, i - 1), i, n);
  }

  /** after all n passes the tracked number is x * n!/n^n */
  lemma AllPasses(r: real, x: real, n: nat)
    requires n >= 1 && r == Passes(x, n, n)
    ensures r == Normalised(x, n)
  {
    var p := Pow(n as real, n);
    var b := x * Fact(n);
    PowPositive(n as real, n);
    PassesClosedForm(x, n, n);
    DivideOut(r, p, b);
  }

  lemma DivideOut(a: real, p: real, b: real)
    requires p > 0.0 && a * p == b
    ensures a == b / p
  {
  }

  /** s = s*i/n changes the number s * 10^e stands for by the factor i/n */
  lemma ScaleMantissa(s: real, e: int, i: nat, n: nat)
    requires n >= 1
    ensures Decimal(s * (i as real) / (n as real), e) == Pass(Decimal(s, e), i, n)
  {
  }

  /** moving 1e140 from the mantissa into the exponent keeps the number */
  lemma ShiftDigits(t: real, e: int)
    ensures Decimal(t * Threshold(), e - Digits) == Decimal(t, e)
  {
    Pow10Add(Digits, e - Digits, e);
  }

  /**
   The loop of code/aspa_dist.c:122-128: s = q; for i = 1..n, s = s*i/n and,
   whenever s drops below 1e-140, s *= 1e140 and eQ -= 140; finally
   s * 10^eQ. The bookkeeping is exact: the result is q * 10^eQ * n!/n^n.
   */
  method Normalise(q: real, eq: int, n: nat) returns (r: real)
    requires n >= 1
    ensures r == Normalised(Decimal(q, eq), n)
  {
    var s := q;
    var e := eq;
    var i := 1;
    while i <= n
      invariant 1 <= i <= n + 1
      invariant Decimal(s, e) == Passes(Decimal(q, eq), n, i - 1)
    {
      ScaleMantissa(s, e, i, n);
      s := s * (i as real) / (n as real);
      if s < Shrink() {
        ShiftDigits(s, e);
        s := s * Threshold();
        e := e - Digits;
      }
      i := i + 1;
    }
    r := s * Pow10(e);
    var x := Decimal(q, eq);
    assert r == Decimal(s, e) == Passes(x, n, n);
    AllPasses(r, x, n);
  }

  /** The exact regime (k >= 1): Q = H^n by `mPower` with eH = 0, then the
      normalisation of the centre entry. */
  method ExactPath(n: nat, d: real) returns (r: real)
    requires n >= 1 && (n as real) * d > 0.0
    ensures r == ExactK(n, d)
  {
    ShapeFacts(n, d);
    var sh := ShapeOf(n, d);
    var H := HMatrix(sh.h, sh.m);
    r := NormalisedCentre(H, sh.m, n, sh.k - 1);
  }

  /** `mPower(H, 0, Q, &eQ, m, n)` followed by the normalisation of Q's
      entry (c, c): the result is n!/n^n * (H^n)[c][c]. */
  method NormalisedCentre(H: Matrix, m: nat, n: nat, c: nat) returns (r: real)
    requires m >= 1 && IsSquare(H, m) && n >= 1 && c < m
    ensures r == Normalised(MatPow(H, m, n)[c][c], n)
  {
    var v := MPower(H, 0, m, n);
    CentreOfPower(H, m, n, c);
    r := Normalise(v.mantissa[c][c], v.exponent, n);
  }

  /** With eH = 0, the mantissa and exponent `mPower` leaves in Q stand for
      the n-th power of H, entry by entry. */
  lemma CentreOfPower(H: Matrix, m: nat, n: nat, c: nat)
    requires m >= 1 && IsSquare(H, m) && n >= 1 && c < m
    ensures Decimal(MPower(H, 0, m, n).mantissa[c][c], MPower(H, 0, m, n).exponent) == MatPow(H, m, n)[c][c]
  {
    var v := MPower(H, 0, m, n);
    PowerOfH(H, m, n);
    EntryOfValue(v, MatPow(H, m, n), m, c);
  }

  /** with eH = 0 the scaled matrix `mPower` returns stands for H^n */
  lemma PowerOfH(H: Matrix, m: nat, n: nat)
    requires m >= 1 && IsSquare(H, m) && n >= 1
    ensures Value(MPower(H, 0, m, n), m) == MatPow(H, m, n)
  {
    MPowerIsPower(H, 0, m, n);
    var one := Pow10(0);
    assert one == 1.0;
    ScaleOne(H, m);
  }

  lemma EntryOfValue(v: Scaled, M: Matrix, m: nat, c: nat)
    requires IsSquare(v.mantissa, m) && c < m && Value(v, m) == M
    ensures Decimal(v.mantissa[c][c], v.exponent) == M[c][c]
  {
    ValueEntry(v, m, c, c);
  }

  /**
   `aspa_cdf_K(n, d)` with the exact regime guarded: when n*d <= 0 the
   matrix would have order m = 2*ceil(n*d) - 1 <= -1, so the result is the
   probability 0 that D_n (always at least 1/(2n)) does not exceed d.
   */
  method CdfK(lib: Primitives, n: nat, d: real) returns (r: real)
    requires n >= 1 && lib.sqrt(n as real) > 0.0
    ensures UsesAsymptotic(n, d) ==> r == Asymptotic(lib, n, d)
    ensures !UsesAsymptotic(n, d) && (n as real) * d <= 0.0 ==> r == 0.0
    ensures !UsesAsymptotic(n, d) && (n as real) * d > 0.0 ==> r == ExactK(n, d)
  {
    if UsesAsymptotic(n, d) {
      r := Asymptotic(lib, n, d);
    } else if (n as real) * d <= 0.0 {
      r := 0.0;
    } else {
      r := ExactPath(n, d);
    }
  }

  /** What `aspa_cdf_K` returns, or the first buffer access outside H. */
  datatype Outcome = Probability(p: real) | OutOfBounds(index: int, length: int)

  /**
   `aspa_cdf_K(n, d)` as written: in the exact regime it allocates m*m
   doubles and, at line 114, updates H[(m-1)*m]. When n*d <= 0, m <= -1 and
   that index is at least m*m, past the end of the buffer.
   */
  method CdfKAsWritten(lib: Primitives, n: nat, d: real) returns (r: Outcome)
    requires n >= 1 && lib.sqrt(n as real) > 0.0
    ensures r.OutOfBounds? <==> !UsesAsymptotic(n, d) && (n as real) * d <= 0.0
    ensures r.OutOfBounds? ==> r.index >= r.length
    ensures UsesAsymptotic(n, d) ==> r == Probability(Asymptotic(lib, n, d))
    ensures !UsesAsymptotic(n, d) && (n as real) * d > 0.0 ==> r == Probability(ExactK(n, d))
  {
    if UsesAsymptotic(n, d) {
      return Probability(Asymptotic(lib, n, d));
    }
    var sh := ShapeOf(n, d);
    var corner := (sh.m - 1) * sh.m;
    if !(0 <= corner < sh.m * sh.m) {
      CornerOutside(n, d, sh.m);
      return OutOfBounds(corner, sh.m * sh.m);
    }
    if (n as real) * d <= 0.0 {
      CornerOutside(n, d, sh.m);
      assert false;
    }
    var p := ExactPath(n, d);
    return Probability(p);
  }

  /** m <= -1 exactly when n*d <= 0, and then (m-1)*m >= m*m. */
  lemma CornerOutside(n: nat, d: real, m: int)
    requires m == ShapeOf(n, d).m
    ensures m <= -1 <==> (n as real) * d <= 0.0
    ensures m <= -1 ==> (m - 1) * m >= m * m
    ensures m >= 1 ==> 0 <= (m - 1) * m < m * m
  {
    assert (m - 1) * m == m * m - m;
  }

  /** d = 0 with n = 1 takes the exact regime and writes H[2] into a
      buffer of one double. */
  lemma ZeroDeviationOverflows()
    ensures !UsesAsymptotic(1, 0.0)
    ensures ShapeOf(1, 0.0).m == -1
    ensures (ShapeOf(1, 0.0).m - 1) * ShapeOf(1, 0.0).m == 2
  {
  }
}

=== FILE: kolmogorov_plus.dfy ===
/**
 `aspa_cdf_Kplus(n, d)` (code/aspa_dist.c:145-159): the distribution
 function of the one-sided Kolmogorov statistic, P(D_n^+ <= d), by
 equation 3 of Birnbaum and Tingey (1951),

   1 - d * sum over j = 0 .. floor(n(1-d)) of
           C(n, j) (1 - d - j/n)^(n-j) (d + j/n)^(j-1),

 each term evaluated in log space as exp(lnC(n,j) + (n-j) log(1-d-j/n)
 + (j-1) log(d+j/n)).
 */
module KolmogorovPlus {
  import opened RealMath
  import opened Sums

  /** `(unsigned int) floor(n*(1-d))`, the last index of the sum. For
      0 < d < 1 it lies in 0 .. n-1: the conversion to unsigned never wraps
      and every exponent n-j of the sum is at least 1. */
  function Top(n: nat, d: real): (k: int)
    ensures n >= 1 && 0.0 < d < 1.0 ==> 0 <= k < n
  {
    var x := (n as real) * (1.0 - d);
    assert n >= 1 && 0.0 < d < 1.0 ==> 0.0 < x < n as real;
    Floor(x)
  }

  /** the base 1 - d - j/n of the (n-j)-th power */
  function Lower(n: nat, d: real, j: nat): real
    requires n >= 1
  {
    1.0 - d - (j as real) / (n as real)
  }

  /** the base d + j/n of the (j-1)-th power */
  function Upper(n: nat, d: real, j: nat): real
    requires n >= 1
  {
    d + (j as real) / (n as real)
  }

  /** term j of the sum, as the loop body computes it. When 1 - d - j/n is
      0 (n(1-d) a whole number and j = k), log gives -infinity, the exponent
      (n-j) log 0 with n-j >= 1 is -infinity, and exp of it is 0. */
  function Term(lib: Primitives, n: nat, d: real, j: nat): real
    requires n >= 1
  {
    if Lower(n, d, j) == 0.0 && j < n then 0.0
    else
      lib.exp(lib.lnChoose(n, j)
              + ((n - j) as real) * lib.log(Lower(n, d, j))
              + ((j - 1) as real) * lib.log(Upper(n, d, j)))
  }

  function Terms(lib: Primitives, n: nat, d: real): nat -> real
    requires n >= 1
  {
    (j: nat) => Term(lib, n, d, j)
  }

  /** 1 - d*s, the probability from the sum s */
  function Complement(d: real, s: real): real
  {
    1.0 - d * s
  }

  /**
   The function as written: 0 for d <= 0, 1 for d >= 1, and otherwise
   1 - d*s where the loop accumulates s over j = 0 .. k.
   */
  method CdfKplus(lib: Primitives, n: nat, d: real) returns (r: real)
    requires n >= 1
    ensures d <= 0.0 ==> r == 0.0
    ensures d >= 1.0 ==> r == 1.0
    ensures 0.0 < d < 1.0 ==> r == Complement(d, Sum(Terms(lib, n, d), Top(n, d) + 1))
  {
    if d <= 0.0 {
      return 0.0;
    }
    if d >= 1.0 {
      return 1.0;
    }
    var s := Accumulate(Terms(lib, n, d), Top(n, d) + 1);
    r := 1.0 - d * s;
    assert r == Complement(d, s);
  }

  /** The sum runs over exactly the j whose base 1 - d - j/n is not negative,
      so no logarithm of a negative number is taken, and the other base
      d + j/n is always positive. */
  lemma SummationRange(n: nat, d: real, j: nat)
    requires n >= 1 && 0.0 < d < 1.0
    ensures j <= Top(n, d) <==> Lower(n, d, j) >= 0.0
    ensures Upper(n, d, j) > 0.0
  {
    var nr := n as real;
    var x := nr * (1.0 - d);
    assert (j as real) / nr <= 1.0 - d <==> (j as real) <= x by {
      DivisionOrder(j as real, nr, 1.0 - d);
    }
  }

  /** a / n <= b exactly when a <= n * b, for n > 0 */
  lemma DivisionOrder(a: real, n: real, b: real)
    requires n > 0.0
    ensures a / n <= b <==> a <= n * b
  {
    assert a == (a / n) * n;
  }

  /** the binomial coefficient C(n, j) as a real, by Pascal's rule */
  function Choose(n: nat, j: nat): real
  {
    if j == 0 then 1.0
    else if n == 0 then 0.0
    else Choose(n - 1, j - 1) + Choose(n - 1, j)
  }

  /** (d + j/n)^(j-1); for j = 0 the exponent is -1 */
  function UpperFactor(n: nat, d: real, j: nat): real
    requires n >= 1 && Upper(n, d, j) > 0.0
  {
    if j == 0 then 1.0 / Upper(n, d, j) else Pow(Upper(n, d, j), j - 1)
  }

  /** term j of Birnbaum and Tingey's sum */
  function TingeyTerm(n: nat, d: real, j: nat): real
    requires n >= 1 && j < n && Upper(n, d, j) > 0.0
  {
    Choose(n, j) * Pow(Lower(n, d, j), n - j) * UpperFactor(n, d, j)
  }

  function TingeyTerms(n: nat, d: real): nat -> real
    requires n >= 1 && 0.0 < d < 1.0
  {
    (j: nat) => if j < n then (SummationRange(n, d, j); TingeyTerm(n, d, j)) else 0.0
  }

  /** Equation 3 of Birnbaum and Tingey (1951) for 0 < d < 1. */
  function BirnbaumTingey(n: nat, d: real): real
    requires n >= 1 && 0.0 < d < 1.0
  {
    Complement(d, Sum(TingeyTerms(n, d), Top(n, d) + 1))
  }

  /** What exp, log and lnchoose must do on the arguments of term j for the
      log-space evaluation to be exact: exp turns the sum of the three
      logarithms into a product, and each exponentiated logarithm is the
      factor it stands for. */
  predicate ExactOnTerm(lib: Primitives, n: nat, d: real, j: nat)
    requires n >= 1 && j < n && Upper(n, d, j) > 0.0
  {
    var u := lib.lnChoose(n, j);
    var v := ((n - j) as real) * lib.log(Lower(n, d, j));
    var w := ((j - 1) as real) * lib.log(Upper(n, d, j));
    && lib.exp(u + v + w) == lib.exp(u) * lib.exp(v) * lib.exp(w)
    && lib.exp(u) == Choose(n, j)
    && lib.exp(v) == Pow(Lower(n, d, j), n - j)
    && lib.exp(w) == UpperFactor(n, d, j)
  }

  /** When the primitives are exact on every term whose logarithms are
      finite (1 - d - j/n > 0), the log-space loop of `aspa_cdf_Kplus`
      computes Birnbaum and Tingey's probability. */
  lemma KplusIsBirnbaumTingey(lib: Primitives, n: nat, d: real, r: real)
    requires n >= 1 && 0.0 < d < 1.0
    requires forall j :: 0 <= j < n && Lower(n, d, j) > 0.0 && Upper(n, d, j) > 0.0 ==> ExactOnTerm(lib, n, d, j)
    requires r == Complement(d, Sum(Terms(lib, n, d), Top(n, d) + 1))
    ensures r == BirnbaumTingey(n, d)
  {
    SumIsTingey(lib, n, d, Top(n, d) + 1);
  }

  /** the first k <= floor(n(1-d)) + 1 terms agree when the primitives are
      exact on them */
  lemma SumIsTingey(lib: Primitives, n: nat, d: real, k: nat)
    requires n >= 1 && 0.0 < d < 1.0 && k <= Top(n, d) + 1
    requires forall j :: 0 <= j < n && Lower(n, d, j) > 0.0 && Upper(n, d, j) > 0.0 ==> ExactOnTerm(lib, n, d, j)
    ensures Sum(Terms(lib, n, d), k) == Sum(TingeyTerms(n, d), k)
  {
    forall j | 0 <= j < k
      ensures Terms(lib, n, d)(j) == TingeyTerms(n, d)(j)
    {
      SummationRange(n, d, j);
      TermIsTingey(lib, n, d, j);
    }
    SumExtensional(Terms(lib, n, d), TingeyTerms(n, d), k);
  }

  /** One term of KplusIsBirnbaumTingey: a term with base 1 - d - j/n = 0 is
      0 on both sides, any other is equal under exactness. */
  lemma TermIsTingey(lib: Primitives, n: nat, d: real, j: nat)
    requires n >= 1 && j < n && Upper(n, d, j) > 0.0 && Lower(n, d, j) >= 0.0
    requires Lower(n, d, j) > 0.0 ==> ExactOnTerm(lib, n, d, j)
    ensures Term(lib, n, d, j) == TingeyTerm(n, d, j)
  {
    if Lower(n, d, j) == 0.0 {
      ZeroPower(n - j);
      assert TingeyTerm(n, d, j) == Choose(n, j) * Pow(0.0, n - j) * UpperFactor(n, d, j);
    } else {
      var u := lib.lnChoose(n, j);
      var v := ((n - j) as real) * lib.log(Lower(n, d, j));
      var w := ((j - 1) as real) * lib.log(Upper(n, d, j));
      var t := Term(lib, n, d, j);
      assert t == lib.exp(u + v + w);
      var x := Choose(n, j);
      var y := Pow(Lower(n, d, j), n - j);
      var z := UpperFactor(n, d, j);
      assert TingeyTerm(n, d, j) == x * y * z;
      Substitute(t, lib.exp(u), lib.exp(v), lib.exp(w), x, y, z);
    }
  }

  lemma ZeroPower(k: nat)
    requires k >= 1
    ensures Pow(0.0, k) == 0.0
  {
  }

  /** The exactness premise of KplusIsBirnbaumTingey can be met by an exp
      that is positive everywhere, also for d > 1/n: at n = 3, d = 1/2 the
      terms j = 0, 1 have finite logarithms (log(1/2) = -1, log(1/6) = -5,
      lnChoose(3, 1) = 20) and exp is exact at the seven points they use. */
  lemma ExactnessAttainable() returns (lib: Primitives)
    ensures forall x :: lib.exp(x) > 0.0
    ensures forall j :: 0 <= j < 3 && Lower(3, 0.5, j) > 0.0 && Upper(3, 0.5, j) > 0.0 ==> ExactOnTerm(lib, 3, 0.5, j)
  {
    lib := Primitives(
      (x: real) =>
        if x == -3.0 then 1.0 / 8.0
        else if x == 1.0 then 2.0
        else if x == -2.0 then 1.0 / 4.0
        else if x == 20.0 then 3.0
        else if x == -10.0 then 1.0 / 36.0
        else if x == 10.0 then 1.0 / 12.0
        else 1.0,
      (x: real) => if x == 0.5 then -1.0 else if x == 1.0 / 6.0 then -5.0 else 0.0,
      (x: real) => 0.0,
      (a: int, b: int) => if a == 3 && b == 1 then 20.0 else 0.0,
      (x: real) => 0.0,
      (x: real) => 0.0);
    forall j | 0 <= j < 3 && Lower(3, 0.5, j) > 0.0 && Upper(3, 0.5, j) > 0.0
      ensures ExactOnTerm(lib, 3, 0.5, j)
    {
      if j == 0 {
        assert Lower(3, 0.5, 0) == 0.5 && Upper(3, 0.5, 0) == 0.5;
        assert UpperFactor(3, 0.5, 0) == 2.0;
        assert Pow(0.5, 3) == 1.0 / 8.0;
        assert Choose(3, 0) == 1.0;
      } else {
        assert j == 1;
        assert Lower(3, 0.5, 1) == 1.0 / 6.0 && Upper(3, 0.5, 1) == 5.0 / 6.0;
        assert UpperFactor(3, 0.5, 1) == 1.0;
        assert Pow(1.0 / 6.0, 2) == 1.0 / 36.0;
        assert Choose(3, 1) == 3.0;
      }
    }
  }

  lemma Substitute(t: real, a: real, b: real, c: real, x: real, y: real, z: real)
    requires t == a * b * c && a == x && b == y && c == z
    ensures t == x * y * z
  {
  }
}

=== FILE: matrix.dfy ===
/**
 Square matrices of reals and their products, the arithmetic behind
 `mMultiply` and `mPower` in code/aspa_dist.c. A C matrix is a row-major
 buffer of m*m doubles whose entry (i, j) sits at index i*m+j; here it is a
 sequence of m rows of m reals, so buffer index i*m+j is a[i][j].
 */
module Matrices {
  import opened Sums

  type Matrix = seq<seq<real>>

  predicate IsSquare(a: Matrix, m: nat)
  {
    |a| == m && forall i :: 0 <= i < m ==> |a[i]| == m
  }

  /** the k-th product of row i of a with column j of b (zero past m) */
  function RowTimesColumn(a: Matrix, b: Matrix, m: nat, i: nat, j: nat): nat -> real
    requires IsSquare(a, m) && IsSquare(b, m) && i < m && j < m
  {
    (k: nat) => if k < m then a[i][k] * b[k][j] else 0.0
  }

  /** entry (i, j) of a*b: the sum over k < m of a[i][k] * b[k][j] */
  function Dot(a: Matrix, b: Matrix, m: nat, i: nat, j: nat): real
    requires IsSquare(a, m) && IsSquare(b, m) && i < m && j < m
  {
    Sum(RowTimesColumn(a, b, m, i, j), m)
  }

  /** the matrix product a*b */
  function MatMul(a: Matrix, b: Matrix, m: nat): (c: Matrix)
    requires IsSquare(a, m) && IsSquare(b, m)
    ensures IsSquare(c, m)
    ensures forall i, j :: 0 <= i < m && 0 <= j < m ==> c[i][j] == Dot(a, b, m, i, j)
  {
    seq(m, (i: int) requires 0 <= i < m => seq(m, (j: int) requires 0 <= j < m => Dot(a, b, m, i, j)))
  }

  /** every entry multiplied by c */
  function Scale(a: Matrix, m: nat, c: real): (r: Matrix)
    requires IsSquare(a, m)
    ensures IsSquare(r, m)
    ensures forall i, j :: 0 <= i < m && 0 <= j < m ==> r[i][j] == c * a[i][j]
  {
    seq(m, (i: int) requires 0 <= i < m => seq(m, (j: int) requires 0 <= j < m => c * a[i][j]))
  }

  /** a^n = a * a * ... * a (n >= 1 factors), multiplied from the left */
  function MatPow(a: Matrix, m: nat, n: nat): (r: Matrix)
    requires IsSquare(a, m) && n >= 1
    ensures IsSquare(r, m)
    decreases n
  {
    if n == 1 then a else MatMul(a, MatPow(a, m, n - 1), m)
  }

  lemma MatrixExtensional(x: Matrix, y: Matrix, m: nat)
    requires IsSquare(x, m) && IsSquare(y, m)
    requires forall i, j :: 0 <= i < m && 0 <= j < m ==> x[i][j] == y[i][j]
    ensures x == y
  {
    forall i | 0 <= i < m
      ensures x[i] == y[i]
    {
      assert forall j :: 0 <= j < m ==> x[i][j] == y[i][j];
    }
  }

  /**
   The loop of `mMultiply` (code/aspa_dist.c:22-34): for every (i, j) it
   accumulates s over k and stores s as entry (i, j) of the result.
   */
  method MMultiply(a: Matrix, b: Matrix, m: nat) returns (c: Matrix)
    requires IsSquare(a, m) && IsSquare(b, m)
    ensures IsSquare(c, m)
    ensures forall i, j :: 0 <= i < m && 0 <= j < m ==> c[i][j] == Sum(RowTimesColumn(a, b, m, i, j), m)
  {
    c := [];
    var i := 0;
    while i < m
      invariant 0 <= i <= m
      invariant |c| == i
      invariant forall r :: 0 <= r < i ==> |c[r]| == m
      invariant forall r, j :: 0 <= r < i && 0 <= j < m ==> c[r][j] == Dot(a, b, m, r, j)
    {
      var row := [];
      var j := 0;
      while j < m
        invariant 0 <= j <= m
        invariant |row| == j
        invariant forall t :: 0 <= t < j ==> row[t] == Dot(a, b, m, i, t)
      {
        var s := 0.0;
        var k := 0;
        while k < m
          invariant 0 <= k <= m
          invariant s == Sum(RowTimesColumn(a, b, m, i, j), k)
        {
          s := s + a[i][k] * b[k][j];
          k := k + 1;
        }
        row := row + [s];
        j := j + 1;
      }
      c := c + [row];
      i := i + 1;
    }
  }

  /** (p*x) * (q*y) == (p*q) * (x*y) */
  lemma ProductOfScaled(x: real, y: real, p: real, q: real)
    ensures (p * x) * (q * y) == (p * q) * (x * y)
  {
  }

  /** Scaling the factors scales the product: (p a)(q b) = (p q)(a b). */
  lemma MatMulScale(a: Matrix, b: Matrix, m: nat, p: real, q: real)
    requires IsSquare(a, m) && IsSquare(b, m)
    ensures MatMul(Scale(a, m, p), Scale(b, m, q), m) == Scale(MatMul(a, b, m), m, p * q)
  {
    var sa := Scale(a, m, p);
    var sb := Scale(b, m, q);
    forall i, j | 0 <= i < m && 0 <= j < m
      ensures Dot(sa, sb, m, i, j) == (p * q) * Dot(a, b, m, i, j)
    {
      DotScale(a, b, sa, sb, m, p, q, i, j);
    }
    MatrixExtensional(MatMul(sa, sb, m), Scale(MatMul(a, b, m), m, p * q), m);
  }

  /** one entry of MatMulScale */
  lemma DotScale(a: Matrix, b: Matrix, sa: Matrix, sb: Matrix, m: nat, p: real, q: real, i: nat, j: nat)
    requires IsSquare(a, m) && IsSquare(b, m) && i < m && j < m
    requires sa == Scale(a, m, p) && sb == Scale(b, m, q)
    ensures Dot(sa, sb, m, i, j) == (p * q) * Dot(a, b, m, i, j)
  {
    var f := RowTimesColumn(a, b, m, i, j);
    var g := RowTimesColumn(sa, sb, m, i, j);
    var c := p * q;
    forall k | 0 <= k < m
      ensures g(k) == ScaleTerms(f, c)(k)
    {
      ProductOfScaled(a[i][k], b[k][j], p, q);
    }
    SumExtensional(g, ScaleTerms(f, c), m);
    SumScale(f, c, m);
  }

  lemma ScaleScale(a: Matrix, m: nat, p: real, q: real)
    requires IsSquare(a, m)
    ensures Scale(Scale(a, m, p), m, q) == Scale(a, m, q * p)
  {
    MatrixExtensional(Scale(Scale(a, m, p), m, q), Scale(a, m, q * p), m);
  }

  lemma ScaleOne(a: Matrix, m: nat)
    requires IsSquare(a, m)
    ensures Scale(a, m, 1.0) == a
  {
    MatrixExtensional(Scale(a, m, 1.0), a, m);
  }

  /** the terms a[i][l] * b[l][k] * c[k][j] of entry (i, j) of a*b*c */
  function Triple(a: Matrix, b: Matrix, c: Matrix, m: nat, i: nat, j: nat): (nat, nat) -> real
    requires IsSquare(a, m) && IsSquare(b, m) && IsSquare(c, m) && i < m && j < m
  {
    (k: nat, l: nat) => if k < m && l < m then a[i][l] * b[l][k] * c[k][j] else 0.0
  }

  lemma TripleLeft(x: real, y: real, z: real)
    ensures x * y * z == z * (x * y)
  {
  }

  lemma TripleRight(x: real, y: real, z: real)
    ensures x * y * z == x * (y * z)
  {
  }

  /** ((a b) c)[i][j] is the double sum of Triple taken row by row */
  lemma AssociativeLeft(a: Matrix, b: Matrix, c: Matrix, m: nat, i: nat, j: nat)
    requires IsSquare(a, m) && IsSquare(b, m) && IsSquare(c, m) && i < m && j < m
    ensures Dot(MatMul(a, b, m), c, m, i, j) == Sum(RowSums(Triple(a, b, c, m, i, j), m), m)
  {
    var g := Triple(a, b, c, m, i, j);
    var ab := MatMul(a, b, m);
    forall k | 0 <= k < m
      ensures RowTimesColumn(ab, c, m, i, j)(k) == RowSums(g, m)(k)
    {
      forall l | 0 <= l < m
        ensures Slice(g, k)(l) == ScaleTerms(RowTimesColumn(a, b, m, i, k), c[k][j])(l)
      {
        TripleLeft(a[i][l], b[l][k], c[k][j]);
      }
      SumExtensional(Slice(g, k), ScaleTerms(RowTimesColumn(a, b, m, i, k), c[k][j]), m);
      SumScale(RowTimesColumn(a, b, m, i, k), c[k][j], m);
    }
    SumExtensional(RowTimesColumn(ab, c, m, i, j), RowSums(g, m), m);
  }

  /** (a (b c))[i][j] is the double sum of Triple taken column by column */
  lemma AssociativeRight(a: Matrix, b: Matrix, c: Matrix, m: nat, i: nat, j: nat)
    requires IsSquare(a, m) && IsSquare(b, m) && IsSquare(c, m) && i < m && j < m
    ensures Dot(a, MatMul(b, c, m), m, i, j) == Sum(ColumnSums(Triple(a, b, c, m, i, j), m), m)
  {
    var g := Triple(a, b, c, m, i, j);
    var bc := MatMul(b, c, m);
    forall l | 0 <= l < m
      ensures RowTimesColumn(a, bc, m, i, j)(l) == ColumnSums(g, m)(l)
    {
      forall k | 0 <= k < m
        ensures Column(g, l)(k) == ScaleTerms(RowTimesColumn(b, c, m, l, j), a[i][l])(k)
      {
        TripleRight(a[i][l], b[l][k], c[k][j]);
      }
      SumExtensional(Column(g, l), ScaleTerms(RowTimesColumn(b, c, m, l, j), a[i][l]), m);
      SumScale(RowTimesColumn(b, c, m, l, j), a[i][l], m);
    }
    SumExtensional(RowTimesColumn(a, bc, m, i, j), ColumnSums(g, m), m);
  }

  /** The matrix product is associative. */
  lemma Associative(a: Matrix, b: Matrix, c: Matrix, m: nat)
    requires IsSquare(a, m) && IsSquare(b, m) && IsSquare(c, m)
    ensures MatMul(MatMul(a, b, m), c, m) == MatMul(a, MatMul(b, c, m), m)
  {
    forall i, j | 0 <= i < m && 0 <= j < m
      ensures Dot(MatMul(a, b, m), c, m, i, j) == Dot(a, MatMul(b, c, m), m, i, j)
    {
      AssociativeLeft(a, b, c, m, i, j);
      AssociativeRight(a, b, c, m, i, j);
      SumSwap(Triple(a, b, c, m, i, j), m, m);
    }
    MatrixExtensional(MatMul(MatMul(a, b, m), c, m), MatMul(a, MatMul(b, c, m), m), m);
  }

  /** Powers add: a^(p+q) = a^p a^q. */
  lemma {:induction false} MatPowAdd(a: Matrix, m: nat, p: nat, q: nat, s: nat)
    requires IsSquare(a, m) && p >= 1 && q >= 1 && s == p + q
    ensures MatPow(a, m, s) == MatMul(MatPow(a, m, p), MatPow(a, m, q), m)
    decreases p
  {
    if p > 1 {
      MatPowAdd(a, m, p - 1, q, s - 1);
      Associative(a, MatPow(a, m, p - 1), MatPow(a, m, q), m);
    }
  }
}

=== FILE: matrix_power.dfy ===
/**
 `mPower` of code/aspa_dist.c:50-83: binary exponentiation of a square
 matrix whose entries are kept in range by a separate decimal exponent.
 A scaled matrix (mantissa V, exponent e) stands for V * 10^e.
 */
module MatrixPower {
  import opened RealMath
  import opened Matrices

  datatype Scaled = Scaled(mantissa: Matrix, exponent: int)

  /** the matrix a scaled matrix stands for: mantissa * 10^exponent */
  function Value(v: Scaled, m: nat): Matrix
    requires IsSquare(v.mantissa, m)
  {
    Scale(v.mantissa, m, Pow10(v.exponent))
  }

  /** entry (i, j) of the matrix a scaled matrix stands for */
  lemma ValueEntry(v: Scaled, m: nat, i: nat, j: nat)
    requires IsSquare(v.mantissa, m) && i < m && j < m
    ensures Value(v, m)[i][j] == Pow10(v.exponent) * v.mantissa[i][j]
  {
  }

  /** the number of decimal digits one rescale moves into the exponent */
  const Digits: int := 140

  /** 1e140, the centre-entry bound above which `mPower` rescales */
  function Threshold(): real
  {
    Pow10(Digits)
  }

  /** 1e-140, the factor applied to every entry when rescaling */
  function Shrink(): real
  {
    Pow10(-Digits)
  }

  /** The product of two scaled matrices: mantissas multiply (`mMultiply`)
      and exponents add (eB = 2*eV, eV = eA+eB). */
  function Product(x: Scaled, y: Scaled, m: nat): (r: Scaled)
    requires IsSquare(x.mantissa, m) && IsSquare(y.mantissa, m)
    ensures IsSquare(r.mantissa, m)
  {
    Scaled(MatMul(x.mantissa, y.mantissa, m), x.exponent + y.exponent)
  }

  lemma ProductValue(x: Scaled, y: Scaled, m: nat)
    requires IsSquare(x.mantissa, m) && IsSquare(y.mantissa, m)
    ensures Value(Product(x, y, m), m) == MatMul(Value(x, m), Value(y, m), m)
  {
    var p := Pow10(x.exponent);
    var q := Pow10(y.exponent);
    var xy := MatMul(x.mantissa, y.mantissa, m);
    ProductExponent(x, y, m, p, q);
    MatMulScale(x.mantissa, y.mantissa, m, p, q);
    assert Value(Product(x, y, m), m) == Scale(xy, m, p * q);
  }

  /** the exponent of a product carries the product of the two scales */
  lemma ProductExponent(x: Scaled, y: Scaled, m: nat, p: real, q: real)
    requires IsSquare(x.mantissa, m) && IsSquare(y.mantissa, m)
    requires p == Pow10(x.exponent) && q == Pow10(y.exponent)
    ensures Value(Product(x, y, m), m) == Scale(MatMul(x.mantissa, y.mantissa, m), m, p * q)
  {
    Pow10Add(x.exponent, y.exponent, x.exponent + y.exponent);
    assert Pow10(x.exponent + y.exponent) == p * q;
  }

  /** The guard of code/aspa_dist.c:76-81: when the centre entry
      V[(m/2)*m+(m/2)] exceeds 1e140, every entry is multiplied by 1e-140
      and the exponent grows by 140. */
  function Rescale(v: Scaled, m: nat): (r: Scaled)
    requires m >= 1 && IsSquare(v.mantissa, m)
    ensures IsSquare(r.mantissa, m)
    ensures r.exponent == v.exponent + Digits <==> v.mantissa[m / 2][m / 2] > Threshold()
    ensures r.exponent == v.exponent <==> r == v
    ensures v.mantissa[m / 2][m / 2] <= Threshold() ==> r == v
    ensures v.mantissa[m / 2][m / 2] > Threshold() ==> r.mantissa == Scale(v.mantissa, m, Shrink())
  {
    if v.mantissa[m / 2][m / 2] > Threshold() then
      Scaled(Scale(v.mantissa, m, Shrink()), v.exponent + Digits)
    else
      v
  }

  /** Rescaling moves a factor 10^140 from the mantissa to the exponent and
      so leaves the matrix it stands for unchanged. */
  lemma RescaleValue(v: Scaled, m: nat)
    requires m >= 1 && IsSquare(v.mantissa, m)
    ensures Value(Rescale(v, m), m) == Value(v, m)
  {
    if v.mantissa[m / 2][m / 2] > Threshold() {
      ShiftMantissa(v.mantissa, m, v.exponent);
    }
  }

  /** (a * 10^-140) * 10^(e+140) == a * 10^e */
  lemma ShiftMantissa(a: Matrix, m: nat, e: int)
    requires IsSquare(a, m)
    ensures Scale(Scale(a, m, Shrink()), m, Pow10(e + Digits)) == Scale(a, m, Pow10(e))
  {
    var small := Shrink();
    var big := Pow10(e + Digits);
    ScaleScale(a, m, small, big);
    Pow10Add(e + Digits, -Digits, e);
    assert big * small == Pow10(e);
  }

  /**
   `mPower(A, eA, V, &eV, m, n)`: n == 1 copies A and eA; otherwise the
   n/2-th power is computed recursively and then completed by PowerStep.
   */
  function MPower(a: Matrix, ea: int, m: nat, n: nat): (v: Scaled)
    requires m >= 1 && IsSquare(a, m) && n >= 1
    ensures IsSquare(v.mantissa, m)
    decreases n
  {
    if n == 1 then Scaled(a, ea) else PowerStep(a, ea, m, n, MPower(a, ea, m, n / 2))
  }

  /** The part of `mPower` after its recursive call: square the n/2-th
      power, multiply once more by A on the left when n is odd, rescale. */
  function PowerStep(a: Matrix, ea: int, m: nat, n: nat, half: Scaled): (v: Scaled)
    requires m >= 1 && IsSquare(a, m) && IsSquare(half.mantissa, m)
    ensures IsSquare(v.mantissa, m)
  {
    var b := Product(half, half, m);
    if n % 2 == 0 then Rescale(b, m) else Rescale(Product(Scaled(a, ea), b, m), m)
  }

  /** The invariant of `mPower`: V * 10^eV is the n-th power of A * 10^eA. */
  lemma {:induction false} MPowerIsPower(a: Matrix, ea: int, m: nat, n: nat)
    requires m >= 1 && IsSquare(a, m) && n >= 1
    ensures Value(MPower(a, ea, m, n), m) == MatPow(Scale(a, m, Pow10(ea)), m, n)
    ensures n == 1 ==> MPower(a, ea, m, n) == Scaled(a, ea)
    decreases n
  {
    if n > 1 {
      var half := MPower(a, ea, m, n / 2);
      MPowerIsPower(a, ea, m, n / 2);
      PowerStepValue(a, ea, m, n, n / 2, half);
      assert MPower(a, ea, m, n) == PowerStep(a, ea, m, n, half);
    }
  }

  /** One level of the recursion: from the h-th power, h = n/2, to the n-th. */
  lemma PowerStepValue(a: Matrix, ea: int, m: nat, n: nat, h: nat, half: Scaled)
    requires m >= 1 && IsSquare(a, m) && IsSquare(half.mantissa, m)
    requires n >= 2 && h == n / 2
    requires Value(half, m) == MatPow(Scale(a, m, Pow10(ea)), m, h)
    ensures Value(PowerStep(a, ea, m, n, half), m) == MatPow(Scale(a, m, Pow10(ea)), m, n)
  {
    var p := Scale(a, m, Pow10(ea));
    var b := Product(half, half, m);
    Halves(n);
    if n % 2 == 0 {
      SquareValue(half, p, m, h, n);
      RescaleValue(b, m);
      assert PowerStep(a, ea, m, n, half) == Rescale(b, m);
    } else {
      var c := Product(Scaled(a, ea), b, m);
      SquareValue(half, p, m, h, n - 1);
      MultiplyValue(a, ea, b, m, n);
      RescaleValue(c, m);
      assert PowerStep(a, ea, m, n, half) == Rescale(c, m);
    }
  }

  /** Multiplying a scaled (n-1)-th power by A * 10^eA on the left gives the
      n-th power. */
  lemma MultiplyValue(a: Matrix, ea: int, b: Scaled, m: nat, n: nat)
    requires IsSquare(a, m) && IsSquare(b.mantissa, m) && n >= 2
    requires Value(b, m) == MatPow(Scale(a, m, Pow10(ea)), m, n - 1)
    ensures Value(Product(Scaled(a, ea), b, m), m) == MatPow(Scale(a, m, Pow10(ea)), m, n)
  {
    ProductValue(Scaled(a, ea), b, m);
  }

  lemma Halves(n: nat)
    ensures n % 2 == 0 ==> n == n / 2 + n / 2
    ensures n % 2 != 0 ==> n == n / 2 + n / 2 + 1
  {
  }

  /** Squaring a scaled h-th power gives the (h+h)-th power. */
  lemma SquareValue(half: Scaled, p: Matrix, m: nat, h: nat, s: nat)
    requires IsSquare(half.mantissa, m) && IsSquare(p, m) && h >= 1 && s == h + h
    requires Value(half, m) == MatPow(p, m, h)
    ensures Value(Product(half, half, m), m) == MatPow(p, m, s)
  {
    ProductValue(half, half, m);
    MatPowAdd(p, m, h, h, s);
  }
}

=== FILE: real_math.dfy ===
/**
 Exact arithmetic helpers shared by the distribution functions: integral
 powers (what C's `pow` computes when its exponent is a whole number),
 factorials, decimal scale factors 10^e for any integer e, floor and
 ceiling of a real, and the numeric primitives the model leaves
 uninterpreted.
 */
module RealMath {

  /** The numeric routines the model does not interpret: the C library's
      exp, log and sqrt, GSL's gsl_sf_lnchoose, and the two Anderson-Darling
      approximations (the short `adinf` rational form and the full series of
      the limiting distribution). They are parameters of every operation that
      calls them; nothing is assumed about them unless a lemma says so. */
  datatype Primitives = Primitives(
    exp: real -> real,
    log: real -> real,
    sqrt: real -> real,
    lnChoose: (int, int) -> real,
    adinf: real -> real,
    adinfSeries: real -> real
  )

  /** x^k for a natural exponent k */
  function Pow(x: real, k: nat): real
  {
    if k == 0 then 1.0 else x * Pow(x, k - 1)
  }

  /** a positive base has positive powers */
  lemma {:induction false} PowPositive(x: real, k: nat)
    requires x > 0.0
    ensures Pow(x, k) > 0.0
  {
    if k > 0 {
      PowPositive(x, k - 1);
      assert Pow(x, k) == x * Pow(x, k - 1);
    }
  }

  /** n! as a real */
  function Fact(n: nat): (f: real)
    ensures f >= 1.0
  {
    if n == 0 then 1.0 else (n as real) * Fact(n - 1)
  }

  /** 10^e for any integer e */
  function Pow10(e: int): (p: real)
    decreases if e >= 0 then e else -e
  {
    if e == 0 then 1.0 else if e > 0 then 10.0 * Pow10(e - 1) else Pow10(e + 1) / 10.0
  }

  function Max(a: real, b: real): (r: real)
    ensures r >= a && r >= b
    ensures r == a || r == b
  {
    if a >= b then a else b
  }

  /** C's floor(x) followed by a conversion to an integer */
  function Floor(x: real): (f: int)
    ensures f as real <= x < f as real + 1.0
  {
    x.Floor
  }

  /** C's ceil(x) followed by a conversion to an integer */
  function Ceil(x: real): (c: int)
    ensures c as real - 1.0 < x <= c as real
  {
    -((-x).Floor)
  }

  lemma {:induction false} Pow10Positive(e: int)
    ensures Pow10(e) > 0.0
    decreases if e >= 0 then e else -e
  {
    if e > 0 {
      Pow10Positive(e - 1);
    } else if e < 0 {
      Pow10Positive(e + 1);
    }
  }

  /** one more decimal digit: 10^(e+1) == 10 * 10^e */
  lemma Pow10Step(e: int)
    ensures Pow10(e + 1) == 10.0 * Pow10(e)
  {
  }

  /** The decimal exponents of a product add up (s == a + b); this is what
      lets a mantissa carry part of a scale and an exponent the rest. */
  lemma {:induction false} Pow10Add(a: int, b: int, s: int)
    requires s == a + b
    ensures Pow10(s) == Pow10(a) * Pow10(b)
    decreases if a >= 0 then a else -a, 1
  {
    if a == 0 {
      assert Pow10(a) == 1.0;
    } else if a > 0 {
      Pow10AddAbove(a, b, s);
    } else {
      Pow10AddBelow(a, b, s);
    }
  }

  lemma {:induction false} Pow10AddAbove(a: int, b: int, s: int)
    requires s == a + b && a > 0
    ensures Pow10(s) == Pow10(a) * Pow10(b)
    decreases a, 0
  {
    Pow10Add(a - 1, b, s - 1);
    Pow10Step(s - 1);
    Pow10Step(a - 1);
    ShiftUp(Pow10(s), Pow10(s - 1), Pow10(a), Pow10(a - 1), Pow10(b));
  }

  lemma {:induction false} Pow10AddBelow(a: int, b: int, s: int)
    requires s == a + b && a < 0
    ensures Pow10(s) == Pow10(a) * Pow10(b)
    decreases -a, 0
  {
    Pow10Add(a + 1, b, s + 1);
    Pow10Step(s);
    Pow10Step(a);
    ShiftDown(Pow10(s), Pow10(s + 1), Pow10(a), Pow10(a + 1), Pow10(b));
  }

  lemma ShiftUp(ps: real, ps': real, pa: real, pa': real, pb: real)
    requires ps == 10.0 * ps' && ps' == pa' * pb && pa == 10.0 * pa'
    ensures ps == pa * pb
  {
  }

  lemma ShiftDown(ps: real, ps': real, pa: real, pa': real, pb: real)
    requires ps' == 10.0 * ps && ps' == pa' * pb && pa' == 10.0 * pa
    ensures ps == pa * pb
  {
  }
}

=== FILE: sorting.dfy ===
/**
 Ascending sort of a sequence of reals, the job `gsl_sort_vector` does for
 code/aspa_dist.c. The model sorts by insertion; what the rest of the model
 relies on is only that the result is sorted and a permutation of the input,
 and that those two facts determine the result.
 */
module Sorting {

  predicate Sorted(s: seq<real>)
  {
    forall i, j :: 0 <= i < j < |s| ==> s[i] <= s[j]
  }

  /** s with x inserted before the first element greater than or equal to x */
  function Insert(x: real, s: seq<real>): (r: seq<real>)
    requires Sorted(s)
    ensures Sorted(r)
    ensures multiset(r) == multiset(s) + multiset{x}
    ensures |r| == |s| + 1
  {
    if |s| == 0 then [x]
    else if x <= s[0] then [x] + s
    else
      var t := Insert(x, s[1..]);
      assert s == [s[0]] + s[1..];
      PrependSorted(s[0], x, s[1..], t);
      [s[0]] + t
  }

  /** Putting y in front of a sorted t keeps it sorted when y is at most
      every element of t. */
  lemma PrependSorted(y: real, x: real, rest: seq<real>, t: seq<real>)
    requires Sorted([y] + rest) && y < x
    requires Sorted(t) && multiset(t) == multiset(rest) + multiset{x}
    ensures Sorted([y] + t)
  {
    forall k | 0 <= k < |t|
      ensures y <= t[k]
    {
      assert t[k] in multiset(t);
      if t[k] != x {
        assert t[k] in multiset(rest);
        var i :| 0 <= i < |rest| && rest[i] == t[k];
        assert ([y] + rest)[0] == y && ([y] + rest)[i + 1] == rest[i];
      }
    }
    var r := [y] + t;
    forall i, j | 0 <= i < j < |r|
      ensures r[i] <= r[j]
    {
      if i > 0 {
        assert r[i] == t[i - 1] && r[j] == t[j - 1];
      }
    }
  }

  /** The sorted rearrangement of s. */
  function Sort(s: seq<real>): (r: seq<real>)
    ensures Sorted(r)
    ensures multiset(r) == multiset(s)
    ensures |r| == |s|
  {
    if |s| == 0 then []
    else
      assert s == [s[0]] + s[1..];
      Insert(s[0], Sort(s[1..]))
  }

  /** The smallest element of a non-empty sorted sequence is its first. */
  lemma SortedFirstIsLeast(s: seq<real>, x: real)
    requires Sorted(s) && x in multiset(s)
    ensures s[0] <= x
  {
    var k :| 0 <= k < |s| && s[k] == x;
  }

  /** The largest element of a non-empty sorted sequence is its last. */
  lemma SortedLastIsGreatest(s: seq<real>, x: real)
    requires Sorted(s) && x in multiset(s)
    ensures x <= s[|s| - 1]
  {
    var k :| 0 <= k < |s| && s[k] == x;
  }

  /** Each element of a rearrangement r of s comes from some position of
      s. */
  lemma PermutationSource(s: seq<real>, r: seq<real>, i: nat) returns (k: nat)
    requires multiset(r) == multiset(s) && i < |r|
    ensures k < |s| && s[k] == r[i]
  {
    assert r[i] in multiset(r);
    k :| 0 <= k < |s| && s[k] == r[i];
  }

  /** Every element of a sorted sequence lies between its first and its
      last. */
  lemma SortedBounds(r: seq<real>, x: real)
    requires Sorted(r) && x in multiset(r)
    ensures r[0] <= x <= r[|r| - 1]
  {
    SortedFirstIsLeast(r, x);
    SortedLastIsGreatest(r, x);
  }

  /** Two sorted sequences with the same elements are equal: a sorted
      permutation is unique. */
  lemma {:induction false} SortedUnique(a: seq<real>, b: seq<real>)
    requires Sorted(a) && Sorted(b) && multiset(a) == multiset(b)
    ensures a == b
    decreases |a|
  {
    assert |a| == |multiset(a)| == |b|;
    if |a| > 0 {
      assert a[0] in multiset(b) && b[0] in multiset(a) by {
        assert a[0] in multiset(a);
        assert b[0] in multiset(b);
      }
      SortedFirstIsLeast(b, a[0]);
      SortedFirstIsLeast(a, b[0]);
      assert a == [a[0]] + a[1..];
      assert b == [b[0]] + b[1..];
      assert a[0] == b[0];
      assert multiset(a[1..]) == multiset(b[1..]) by {
        assert multiset(a[1..]) == multiset(a) - multiset{a[0]};
        assert multiset(b[1..]) == multiset(b) - multiset{b[0]};
      }
      SortedUnique(a[1..], b[1..]);
    }
  }

  /** Sorting depends only on the elements, not on their order. */
  lemma SortPermutation(a: seq<real>, b: seq<real>)
    requires multiset(a) == multiset(b)
    ensures Sort(a) == Sort(b)
  {
    SortedUnique(Sort(a), Sort(b));
  }

  /** Sorting sorted data changes nothing. */
  lemma SortSorted(s: seq<real>)
    requires Sorted(s)
    ensures Sort(s) == s
  {
    SortedUnique(Sort(s), s);
  }
}

=== FILE: statistics.dfy ===
/**
 The two goodness-of-fit statistics of code/aspa_dist.c computed from data
 already mapped through the hypothesised distribution function (values
 meant to be uniform on [0, 1]): Kolmogorov's D, D+ and D-
 (`aspa_Kolmogorov_D`, lines 180-216) and the Anderson-Darling W^2
 (`aspa_AndersonDarling_W2`, lines 280-304). Both sort a copy of the data
 first unless the caller says it is sorted already.
 */
module Statistics {
  import opened RealMath
  import opened Sums
  import opened Sorting

  /** the data the loops read: the caller's vector when it is declared
      sorted, otherwise a sorted copy */
  function Prepared(data: seq<real>, sorted: bool): seq<real>
  {
    if sorted then data else Sort(data)
  }

  /** The largest of 0, f(0), ..., f(k-1): the running maximum the loop
      keeps in D_p or D_m, starting from 0. */
  function MaxDev(f: nat -> real, k: nat): real
  {
    if k == 0 then 0.0 else Max(MaxDev(f, k - 1), f(k - 1))
  }

  /** The running maximum is the least upper bound of 0 and f(0..k-1): it
      bounds every term, and it is 0 or one of the terms. */
  lemma {:induction false} MaxDevIsMaximum(f: nat -> real, k: nat)
    ensures MaxDev(f, k) >= 0.0
    ensures forall i :: 0 <= i < k ==> f(i) <= MaxDev(f, k)
    ensures MaxDev(f, k) == 0.0 || exists i :: 0 <= i < k && f(i) == MaxDev(f, k)
  {
    if k > 0 {
      MaxDevIsMaximum(f, k - 1);
    }
  }

  /** x_i - i/n: how far the i-th order statistic lies above the empirical
      distribution function just before it */
  function AboveTerms(s: seq<real>): nat -> real
  {
    (i: nat) => if i < |s| then s[i] - (i as real) / (|s| as real) else 0.0
  }

  /** 1/n - (x_i - i/n) = (i+1)/n - x_i: how far the empirical distribution
      function just after x_i lies above x_i */
  function BelowTerms(s: seq<real>): nat -> real
  {
    (i: nat) => if i < |s| then 1.0 / (|s| as real) - AboveTerms(s)(i) else 0.0
  }

  function DPlus(s: seq<real>): real
  {
    MaxDev(AboveTerms(s), |s|)
  }

  function DMinus(s: seq<real>): real
  {
    MaxDev(BelowTerms(s), |s|)
  }

  /** the value `aspa_Kolmogorov_D` returns for the selector `what` */
  function Selected(what: string, dPlus: real, dMinus: real): real
  {
    if what == "D" then Max(dPlus, dMinus)
    else if what == "D+" then dPlus
    else if what == "D-" then dMinus
    else -1.0
  }

  /** the Kolmogorov statistic of the data as the function defines it */
  function KolmogorovStatistic(data: seq<real>, sorted: bool, what: string): real
  {
    var s := Prepared(data, sorted);
    Selected(what, DPlus(s), DMinus(s))
  }

  /**
   `aspa_Kolmogorov_D(data, sorted, what)`: one pass over the (sorted) data
   keeps the running maxima D_p and D_m; "D" returns the larger, "D+" and
   "D-" one of them, any other selector -1.
   */
  method KolmogorovD(data: seq<real>, sorted: bool, what: string) returns (r: real)
    ensures what == "D" ==> r == Max(DPlus(Prepared(data, sorted)), DMinus(Prepared(data, sorted)))
    ensures what == "D+" ==> r == DPlus(Prepared(data, sorted))
    ensures what == "D-" ==> r == DMinus(Prepared(data, sorted))
    ensures what != "D" && what != "D+" && what != "D-" ==> r == -1.0
    ensures r == KolmogorovStatistic(data, sorted, what)
  {
    var s := if sorted then data else Sort(data);
    var dp, dm := RunningMaxima(AboveTerms(s), BelowTerms(s), |s|);
    if what == "D" {
      r := Max(dp, dm);
    } else if what == "D+" {
      r := dp;
    } else if what == "D-" {
      r := dm;
    } else {
      r := -1.0;
    }
  }

  /** The loop of code/aspa_dist.c:196-205: D_p and D_m start at 0 and are
      raised to each x_i - i/n and (i+1)/n - x_i that exceeds them. */
  method RunningMaxima(above: nat -> real, below: nat -> real, n: nat) returns (dp: real, dm: real)
    ensures dp == MaxDev(above, n) && dm == MaxDev(below, n)
  {
    dp := 0.0;
    dm := 0.0;
    var i := 0;
    while i < n
      invariant 0 <= i <= n
      invariant dp == MaxDev(above, i)
      invariant dm == MaxDev(below, i)
    {
      var diff := above(i);
      if diff > dp {
        dp := diff;
      }
      diff := below(i);
      if diff > dm {
        dm := diff;
      }
      i := i + 1;
    }
  }

  /** D+ + D- >= 1/n for any non-empty data: the first point alone is that
      far from one side or the other. Hence D >= 1/(2n) > 0. */
  lemma DeviationsCoverStep(s: seq<real>)
    requires |s| >= 1
    ensures DPlus(s) + DMinus(s) >= 1.0 / (|s| as real)
    ensures Max(DPlus(s), DMinus(s)) > 0.0
  {
    MaxDevIsMaximum(AboveTerms(s), |s|);
    MaxDevIsMaximum(BelowTerms(s), |s|);
    var a := AboveTerms(s)(0);
    assert BelowTerms(s)(0) == 1.0 / (|s| as real) - a;
    assert a <= DPlus(s);
    assert BelowTerms(s)(0) <= DMinus(s);
  }

  /** Unless the data are declared sorted, the statistic does not depend on
      the order of the data. */
  lemma KolmogorovOrderFree(a: seq<real>, b: seq<real>, what: string)
    requires multiset(a) == multiset(b)
    ensures KolmogorovStatistic(a, false, what) == KolmogorovStatistic(b, false, what)
  {
    SortPermutation(a, b);
  }

  /** Declaring sorted data sorted only skips the copy: the value is the
      same. */
  lemma KolmogorovSortedFlag(data: seq<real>, what: string)
    requires Sorted(data)
    ensures KolmogorovStatistic(data, true, what) == KolmogorovStatistic(data, false, what)
  {
    SortSorted(data);
  }

  /** What `aspa_AndersonDarling_W2` returns: a number, +infinity when a
      product x_i (1 - x_{n-1-i}) is 0 (log 0 = -infinity makes A = -infinity
      and -A/n - n = +infinity), or NaN for empty data (0 * (-1/0)) and when a
      product is negative (log of a negative number). */
  datatype Outcome = Number(value: real) | PlusInfinity | NotANumber

  /** x_i (1 - x_{n-1-i}), the number whose logarithm term i takes */
  function Pair(s: seq<real>, i: nat): real
    requires i < |s|
  {
    s[i] * (1.0 - s[|s| - 1 - i])
  }

  /** (2i+1) log(x_i (1 - x_{n-1-i})), term i of the loop when the products
      are positive */
  function W2Terms(lib: Primitives, s: seq<real>): nat -> real
  {
    (i: nat) => if i < |s| then ((2 * i + 1) as real) * lib.log(Pair(s, i)) else 0.0
  }

  /** one of the first k products is negative */
  predicate NegativeBefore(s: seq<real>, k: nat)
    requires k <= |s|
  {
    exists i :: 0 <= i < k && Pair(s, i) < 0.0
  }

  /** one of the first k products is 0 */
  predicate ZeroBefore(s: seq<real>, k: nat)
    requires k <= |s|
  {
    exists i :: 0 <= i < k && Pair(s, i) == 0.0
  }

  /** -(1/n) * sum - n, the last two statements of the function */
  function Finish(a: real, n: nat): real
    requires n >= 1
  {
    -a / (n as real) - (n as real)
  }

  /** the double accumulator A: a finite value, -infinity or NaN */
  datatype Accumulator = Finite(value: real) | MinusInfinity | Undefined

  /** A += (2i+1) log(t): log t is NaN for t < 0 and -infinity for t = 0;
      NaN absorbs everything and -infinity absorbs finite values */
  function AddLogTerm(lib: Primitives, a: Accumulator, i: nat, t: real): Accumulator
  {
    if a == Undefined || t < 0.0 then Undefined
    else if a == MinusInfinity || t == 0.0 then MinusInfinity
    else Finite(a.value + ((2 * i + 1) as real) * lib.log(t))
  }

  /** the accumulator after the loop, seen from the statistic: A *= -1/n and
      A - n */
  function Conclude(a: Accumulator, n: nat): Outcome
    requires n >= 1
  {
    match a
    case Finite(x) => Number(Finish(x, n))
    case MinusInfinity => PlusInfinity
    case Undefined => NotANumber
  }

  /** what the loop's accumulator says after the first i terms: NaN iff a
      product so far is negative, otherwise -infinity iff one is 0, and
      otherwise the finite sum of the terms */
  predicate Tracks(lib: Primitives, s: seq<real>, i: nat, a: Accumulator)
    requires i <= |s|
  {
    && (a == Undefined <==> NegativeBefore(s, i))
    && (a == MinusInfinity <==> !NegativeBefore(s, i) && ZeroBefore(s, i))
    && (a.Finite? ==> a.value == Sum(W2Terms(lib, s), i))
  }

  /**
   `aspa_AndersonDarling_W2(data, sorted)`: A accumulates
   (2i+1) log(x_i (1 - x_{n-1-i})) over the sorted data and the result is
   -A/n - n.
   */
  method AndersonDarlingW2(lib: Primitives, data: seq<real>, sorted: bool) returns (r: Outcome)
    ensures r == NotANumber <==> |data| == 0 || NegativeBefore(Prepared(data, sorted), |data|)
    ensures r == PlusInfinity <==>
      |data| >= 1 && !NegativeBefore(Prepared(data, sorted), |data|) && ZeroBefore(Prepared(data, sorted), |data|)
    ensures r.Number? ==> r.value == Finish(Sum(W2Terms(lib, Prepared(data, sorted)), |data|), |data|)
    ensures r == W2Statistic(lib, data, sorted)
  {
    var s := Prepared(data, sorted);
    assert |s| == |data|;
    if |s| == 0 {
      return NotANumber;
    }
    var a := AccumulateLogs(lib, s);
    r := Conclude(a, |s|);
  }

  /** the loop of lines 295-299 on the prepared data */
  method AccumulateLogs(lib: Primitives, s: seq<real>) returns (a: Accumulator)
    ensures Tracks(lib, s, |s|, a)
  {
    a := Finite(0.0);
    var i := 0;
    while i < |s|
      invariant 0 <= i <= |s|
      invariant Tracks(lib, s, i, a)
    {
      TracksStep(lib, s, i, a);
      a := AddLogTerm(lib, a, i, Pair(s, i));
      i := i + 1;
    }
  }

  /** one pass of the loop keeps Tracks */
  lemma TracksStep(lib: Primitives, s: seq<real>, i: nat, a: Accumulator)
    requires i < |s| && Tracks(lib, s, i, a)
    ensures Tracks(lib, s, i + 1, AddLogTerm(lib, a, i, Pair(s, i)))
  {
    BeforeStep(s, i);
  }

  /** the first i+1 products hold a negative (a zero) one iff the first i
      do or product i is one */
  lemma BeforeStep(s: seq<real>, i: nat)
    requires i < |s|
    ensures NegativeBefore(s, i + 1) <==> NegativeBefore(s, i) || Pair(s, i) < 0.0
    ensures ZeroBefore(s, i + 1) <==> ZeroBefore(s, i) || Pair(s, i) == 0.0
  {
    if NegativeBefore(s, i + 1) {
      var k :| 0 <= k < i + 1 && Pair(s, k) < 0.0;
      if k < i {
        assert NegativeBefore(s, i);
      }
    }
    if ZeroBefore(s, i + 1) {
      var k :| 0 <= k < i + 1 && Pair(s, k) == 0.0;
      if k < i {
        assert ZeroBefore(s, i);
      }
    }
  }

  /** the Anderson-Darling statistic of the data as the function defines it,
      with the floating-point outcomes decided by the signs of the products */
  function W2Statistic(lib: Primitives, data: seq<real>, sorted: bool): Outcome
  {
    var s := Prepared(data, sorted);
    if |s| == 0 then NotANumber
    else if NegativeBefore(s, |s|) then NotANumber
    else if ZeroBefore(s, |s|) then PlusInfinity
    else Number(Finish(Sum(W2Terms(lib, s), |s|), |s|))
  }

  /** For data in [0, 1] (what the function is meant for), W^2 is +infinity
      exactly when 0 or 1 is among the data, and a number otherwise. */
  lemma W2OnUnitInterval(lib: Primitives, data: seq<real>, sorted: bool)
    requires |data| >= 1
    requires forall k :: 0 <= k < |data| ==> 0.0 <= data[k] <= 1.0
    requires sorted ==> Sorted(data)
    ensures W2Statistic(lib, data, sorted) == PlusInfinity <==> 0.0 in data || 1.0 in data
    ensures W2Statistic(lib, data, sorted).Number? <==> !(0.0 in data || 1.0 in data)
  {
    var s := Prepared(data, sorted);
    assert Sorted(s) && multiset(s) == multiset(data) && |s| == |data|;
    forall k | 0 <= k < |s|
      ensures 0.0 <= s[k] <= 1.0
    {
      var j := PermutationSource(data, s, k);
    }
    assert 0.0 in data <==> 0.0 in multiset(s);
    assert 1.0 in data <==> 1.0 in multiset(s);
    UnitSampleProducts(s);
  }

  /** On a sorted sample of [0, 1] no product is negative, and one is 0
      iff the sample holds 0 or 1. */
  lemma UnitSampleProducts(s: seq<real>)
    requires |s| >= 1 && Sorted(s)
    requires forall k :: 0 <= k < |s| ==> 0.0 <= s[k] <= 1.0
    ensures !NegativeBefore(s, |s|)
    ensures ZeroBefore(s, |s|) <==> 0.0 in multiset(s) || 1.0 in multiset(s)
  {
    ProductsNonNegative(s);
    if 0.0 in multiset(s) || 1.0 in multiset(s) {
      EndProductZero(s);
    } else {
      forall k | 0 <= k < |s|
        ensures 0.0 < s[k] < 1.0
      {
        assert s[k] in multiset(s);
      }
      ProductsPositive(s);
    }
  }

  /** products of values in [0, 1] are not negative */
  lemma ProductsNonNegative(s: seq<real>)
    requires forall k :: 0 <= k < |s| ==> 0.0 <= s[k] <= 1.0
    ensures !NegativeBefore(s, |s|)
  {
    forall i | 0 <= i < |s|
      ensures Pair(s, i) >= 0.0
    {
      NonNegativeProduct(s[i], 1.0 - s[|s| - 1 - i]);
    }
  }

  /** products of values in (0, 1) are not 0 */
  lemma ProductsPositive(s: seq<real>)
    requires forall k :: 0 <= k < |s| ==> 0.0 < s[k] < 1.0
    ensures !ZeroBefore(s, |s|)
  {
    forall i | 0 <= i < |s|
      ensures Pair(s, i) != 0.0
    {
      PositiveProduct(s[i], 1.0 - s[|s| - 1 - i]);
    }
  }

  /** a sorted sample of [0, 1] holding 0 starts with 0, one holding 1 ends
      with 1, and either way x_0 (1 - x_{n-1}) is 0 */
  lemma EndProductZero(s: seq<real>)
    requires |s| >= 1 && Sorted(s)
    requires forall k :: 0 <= k < |s| ==> 0.0 <= s[k] <= 1.0
    requires 0.0 in multiset(s) || 1.0 in multiset(s)
    ensures ZeroBefore(s, |s|)
  {
    var x := if 0.0 in multiset(s) then 0.0 else 1.0;
    SortedBounds(s, x);
    assert s[0] == 0.0 || 1.0 - s[|s| - 1] == 0.0;
    assert Pair(s, 0) == 0.0;
  }

  lemma NonNegativeProduct(a: real, b: real)
    requires a >= 0.0 && b >= 0.0
    ensures a * b >= 0.0
  {
  }

  lemma PositiveProduct(a: real, b: real)
    requires a > 0.0 && b > 0.0
    ensures a * b != 0.0
  {
  }

  /** Unless the data are declared sorted, W^2 does not depend on their
      order. */
  lemma W2OrderFree(lib: Primitives, a: seq<real>, b: seq<real>)
    requires multiset(a) == multiset(b)
    ensures W2Statistic(lib, a, false) == W2Statistic(lib, b, false)
  {
    SortPermutation(a, b);
    assert |a| == |multiset(a)| == |b|;
  }

  /** Declaring sorted data sorted only skips the copy. */
  lemma W2SortedFlag(lib: Primitives, data: seq<real>)
    requires Sorted(data)
    ensures W2Statistic(lib, data, true) == W2Statistic(lib, data, false)
  {
    SortSorted(data);
  }

  /** log is additive on the n products the loop takes logarithms of */
  predicate LogSplits(lib: Primitives, s: seq<real>)
  {
    forall i :: 0 <= i < |s| ==>
      lib.log(Pair(s, i)) == lib.log(s[i]) + lib.log(1.0 - s[|s| - 1 - i])
  }

  /** (2i+1) log x_i + (2n-2i-1) log(1 - x_i), term i of the textbook form */
  function TextbookTerms(lib: Primitives, s: seq<real>): nat -> real
  {
    (i: nat) => if i < |s| then ((2 * i + 1) as real) * lib.log(s[i]) + ((2 * |s| - 2 * i - 1) as real) * lib.log(1.0 - s[i]) else 0.0
  }

  /** The usual statement of the statistic,
      A^2 = -n - (1/n) sum_i [(2i+1) log x_i + (2n-2i-1) log(1 - x_i)]. */
  function AndersonDarlingTextbook(lib: Primitives, s: seq<real>): real
    requires |s| >= 1
  {
    Finish(Sum(TextbookTerms(lib, s), |s|), |s|)
  }

  /** When log turns the products into sums, the loop's pairing of x_i with
      1 - x_{n-1-i} gives the textbook statistic. */
  lemma W2IsTextbook(lib: Primitives, s: seq<real>)
    requires |s| >= 1 && LogSplits(lib, s)
    ensures Finish(Sum(W2Terms(lib, s), |s|), |s|) == AndersonDarlingTextbook(lib, s)
  {
    W2SumIsTextbook(lib, s);
  }

  /** the sums agree; Finish then agrees by congruence */
  lemma W2SumIsTextbook(lib: Primitives, s: seq<real>)
    requires LogSplits(lib, s)
    ensures Sum(W2Terms(lib, s), |s|) == Sum(TextbookTerms(lib, s), |s|)
  {
    var n := |s|;
    var lo := LowerLogs(lib, s);
    SplitW2(lib, s);
    SumAdd(lo, UpperLogs(lib, s), n);
    ReverseUpperLogs(lib, s);
    forall i | 0 <= i < n
      ensures TextbookTerms(lib, s)(i) == AddTerms(lo, UpperLogsReversed(lib, s))(i)
    {
    }
    SumExtensional(TextbookTerms(lib, s), AddTerms(lo, UpperLogsReversed(lib, s)), n);
    SumAdd(lo, UpperLogsReversed(lib, s), n);
  }

  /** (2i+1) log x_i */
  function LowerLogs(lib: Primitives, s: seq<real>): nat -> real
  {
    (i: nat) => if i < |s| then ((2 * i + 1) as real) * lib.log(s[i]) else 0.0
  }

  /** (2i+1) log(1 - x_{n-1-i}) */
  function UpperLogs(lib: Primitives, s: seq<real>): nat -> real
  {
    (i: nat) => if i < |s| then ((2 * i + 1) as real) * lib.log(1.0 - s[|s| - 1 - i]) else 0.0
  }

  /** (2n-2i-1) log(1 - x_i), the same terms in reverse order */
  function UpperLogsReversed(lib: Primitives, s: seq<real>): nat -> real
  {
    (i: nat) => if i < |s| then ((2 * |s| - 2 * i - 1) as real) * lib.log(1.0 - s[i]) else 0.0
  }

  lemma SplitW2(lib: Primitives, s: seq<real>)
    requires LogSplits(lib, s)
    ensures Sum(W2Terms(lib, s), |s|) == Sum(AddTerms(LowerLogs(lib, s), UpperLogs(lib, s)), |s|)
  {
    var n := |s|;
    forall i | 0 <= i < n
      ensures W2Terms(lib, s)(i) == AddTerms(LowerLogs(lib, s), UpperLogs(lib, s))(i)
    {
      SplitTerm(lib, s, i);
    }
    SumExtensional(W2Terms(lib, s), AddTerms(LowerLogs(lib, s), UpperLogs(lib, s)), n);
  }

  lemma ReverseUpperLogs(lib: Primitives, s: seq<real>)
    ensures Sum(UpperLogs(lib, s), |s|) == Sum(UpperLogsReversed(lib, s), |s|)
  {
    var n := |s|;
    var hi := UpperLogs(lib, s);
    forall i | 0 <= i < n
      ensures Reversed(hi, n)(i) == UpperLogsReversed(lib, s)(i)
    {
      assert n - 1 - (n - 1 - i) == i;
      assert 2 * (n - 1 - i) + 1 == 2 * n - 2 * i - 1;
    }
    SumReverse(hi, n);
    SumExtensional(Reversed(hi, n), UpperLogsReversed(lib, s), n);
  }

  lemma SplitTerm(lib: Primitives, s: seq<real>, i: nat)
    requires i < |s| && LogSplits(lib, s)
    ensures W2Terms(lib, s)(i) == LowerLogs(lib, s)(i) + UpperLogs(lib, s)(i)
  {
    var a := lib.log(s[i]);
    var b := lib.log(1.0 - s[|s| - 1 - i]);
    var c := (2 * i + 1) as real;
    assert lib.log(Pair(s, i)) == a + b;
    W2At(lib, s, i);
    LowerAt(lib, s, i);
    UpperAt(lib, s, i);
    Distribute(c, a, b);
  }

  lemma W2At(lib: Primitives, s: seq<real>, i: nat)
    requires i < |s|
    ensures W2Terms(lib, s)(i) == ((2 * i + 1) as real) * lib.log(Pair(s, i))
  {
  }

  lemma LowerAt(lib: Primitives, s: seq<real>, i: nat)
    requires i < |s|
    ensures LowerLogs(lib, s)(i) == ((2 * i + 1) as real) * lib.log(s[i])
  {
  }

  lemma UpperAt(lib: Primitives, s: seq<real>, i: nat)
    requires i < |s|
    ensures UpperLogs(lib, s)(i) == ((2 * i + 1) as real) * lib.log(1.0 - s[|s| - 1 - i])
  {
  }

  lemma Distribute(c: real, a: real, b: real)
    ensures c * (a + b) == c * a + c * b
  {
  }
}

=== FILE: sums.dfy ===
/**
 Finite sums f(0) + ... + f(n-1) of real-valued terms, with the algebra the
 matrix code needs: sums of equal terms are equal, constant factors move
 out of a sum, sums of sums add, and a double sum can be taken in either
 order.
 */
module Sums {

  /** f(0) + f(1) + ... + f(n-1), accumulated left to right */
  function Sum(f: nat -> real, n: nat): real
  {
    if n == 0 then 0.0 else Sum(f, n - 1) + f(n - 1)
  }

  /** the term k |-> c * f(k) */
  function ScaleTerms(f: nat -> real, c: real): nat -> real
  {
    (k: nat) => c * f(k)
  }

  /** the term k |-> f(k) + g(k) */
  function AddTerms(f: nat -> real, g: nat -> real): nat -> real
  {
    (k: nat) => f(k) + g(k)
  }

  /** row k of a double-indexed family: l |-> g(k, l) */
  function Slice(g: (nat, nat) -> real, k: nat): nat -> real
  {
    (l: nat) => g(k, l)
  }

  /** column l of a double-indexed family: k |-> g(k, l) */
  function Column(g: (nat, nat) -> real, l: nat): nat -> real
  {
    (k: nat) => g(k, l)
  }

  /** k |-> sum over l < L of g(k, l) */
  function RowSums(g: (nat, nat) -> real, L: nat): nat -> real
  {
    (k: nat) => Sum(Slice(g, k), L)
  }

  /** l |-> sum over k < K of g(k, l) */
  function ColumnSums(g: (nat, nat) -> real, K: nat): nat -> real
  {
    (l: nat) => Sum(Column(g, l), K)
  }

  lemma {:induction false} SumExtensional(f: nat -> real, g: nat -> real, n: nat)
    requires forall k :: 0 <= k < n ==> f(k) == g(k)
    ensures Sum(f, n) == Sum(g, n)
  {
    if n > 0 {
      SumExtensional(f, g, n - 1);
    }
  }

  lemma {:induction false} SumOfZeros(f: nat -> real, n: nat)
    requires forall k :: 0 <= k < n ==> f(k) == 0.0
    ensures Sum(f, n) == 0.0
  {
    if n > 0 {
      SumOfZeros(f, n - 1);
    }
  }

  lemma {:induction false} SumScale(f: nat -> real, c: real, n: nat)
    ensures Sum(ScaleTerms(f, c), n) == c * Sum(f, n)
  {
    if n > 0 {
      SumScale(f, c, n - 1);
      DistributeStep(Sum(ScaleTerms(f, c), n), Sum(ScaleTerms(f, c), n - 1), Sum(f, n), Sum(f, n - 1), f(n - 1), c);
    }
  }

  /** one step of c * (s + x) == c * s + c * x, phrased on the names the
      inductive proofs have at hand */
  lemma DistributeStep(tn: real, t: real, sn: real, s: real, x: real, c: real)
    requires tn == t + c * x && sn == s + x && t == c * s
    ensures tn == c * sn
  {
  }

  lemma {:induction false} SumAdd(f: nat -> real, g: nat -> real, n: nat)
    ensures Sum(AddTerms(f, g), n) == Sum(f, n) + Sum(g, n)
  {
    if n > 0 {
      SumAdd(f, g, n - 1);
    }
  }

  /** Exchanging the order of a finite double sum. */
  lemma {:induction false} SumSwap(g: (nat, nat) -> real, K: nat, L: nat)
    ensures Sum(RowSums(g, L), K) == Sum(ColumnSums(g, K), L)
  {
    if K == 0 {
      forall l | 0 <= l < L
        ensures ColumnSums(g, 0)(l) == 0.0
      {
      }
      SumOfZeros(ColumnSums(g, 0), L);
    } else {
      SumSwap(g, K - 1, L);
      forall l | 0 <= l < L
        ensures ColumnSums(g, K)(l) == AddTerms(ColumnSums(g, K - 1), Slice(g, K - 1))(l)
      {
      }
      SumExtensional(ColumnSums(g, K), AddTerms(ColumnSums(g, K - 1), Slice(g, K - 1)), L);
      SumAdd(ColumnSums(g, K - 1), Slice(g, K - 1), L);
    }
  }

  /** the terms in reverse order: k |-> f(n-1-k) for k < n */
  function Reversed(f: nat -> real, n: nat): nat -> real
  {
    (k: nat) => if k < n then f(n - 1 - k) else 0.0
  }

  /** the terms from the second on: k |-> f(k+1) */
  function Shifted(f: nat -> real): nat -> real
  {
    (k: nat) => f(k + 1)
  }

  /** Peeling the first term off a sum. */
  lemma {:induction false} SumFirst(f: nat -> real, n: nat)
    requires n >= 1
    ensures Sum(f, n) == f(0) + Sum(Shifted(f), n - 1)
  {
    if n > 1 {
      SumFirst(f, n - 1);
    }
  }

  /** A finite sum taken backwards has the same value. */
  lemma {:induction false} SumReverse(f: nat -> real, n: nat)
    ensures Sum(Reversed(f, n), n) == Sum(f, n)
  {
    if n > 0 {
      var g := Shifted(f);
      forall k | 0 <= k < n - 1
        ensures Reversed(f, n)(k) == Reversed(g, n - 1)(k)
      {
      }
      SumExtensional(Reversed(f, n), Reversed(g, n - 1), n - 1);
      SumReverse(g, n - 1);
      SumFirst(f, n);
    }
  }

  /** The accumulation loop: a = 0, then a += f(i) for i = 0, ..., n-1. */
  method Accumulate(f: nat -> real, n: nat) returns (a: real)
    ensures a == Sum(f, n)
  {
    a := 0.0;
    var i := 0;
    while i < n
      invariant 0 <= i <= n
      invariant a == Sum(f, i)
    {
      a := a + f(i);
      i := i + 1;
    }
  }
}
